=== FILE: README.md ===
# A verified model of unform's field registry and data-aggregation engine

This project models the core of the unform form library in Dafny. That core is
the form engine (`FormProvider`) and the per-field binding (`useField`).

A form owns three pieces of state:

- an ordered registry of field records;
- a nested "current data" snapshot, addressed by dotted names;
- a flat error map.

Every engine operation is modelled as a pure transition on that state. This
covers registration, lookup, `reset`, `setData`, `setErrors`, submit-time
aggregation and every method of the imperative handle. Each field's input is a
`Value` cell. Its custom accessors are optional pure functions.

The engine calls the `dot-object` library for dotted-path work. Its own
`PathCodec` module replaces that library: `Pick`, `Put`/`SetAt`, `Flatten` and
`Inflate`, over dot-separated names and plain objects.

Modules, one per component:

- `Wrappers` (`wrappers.dfy`): `Option` and `Result`.
- `PathCodec` (`path_codec.dfy`): JavaScript-like values, splitting and
  joining dotted names, reading and writing by path, flattening and inflating.
- `PathLaws` (`path_laws.dfy`): the laws relating flattening and inflation,
  proved on paths.
- `Registry` (`registry.dfy`): field records, lookup, registration and
  unregistration.
- `FormProvider` (`form_provider.dfy`): the form state and every engine and
  handle operation.
- `UseField` (`use_field.dfy`): name checking, scoped names, default value,
  error, `clearError` and unmount.

Some behaviours of the library shape the model throughout:

- Under `persistHiddenData`, aggregation starts from the snapshot object itself,
  not from a copy. The snapshot is therefore left holding the submitted data
  (`ParseFormData`, and so also `getData()`).
- The fallback to `false` in `getFieldValue` applies only to an unregistered
  name whose snapshot value is `null` or `undefined`. A registered field returns
  whatever it reads, `undefined` included.
- Duplicate names follow one policy everywhere: the earliest-registered record
  wins. Lookup, `unregisterField`, `clearField`, `getFieldRef`, the handle's
  `setFieldValue` and `setData` all act on it. A later duplicate still has its
  input blanked or refilled by `reset`, which visits every record, and it is
  written last at submit, so its value wins there.
- `setData` passes `undefined` to a custom setter when the data holds nothing
  at the field's name. The default path writer ignores `undefined`, because
  `dot.set` does not write it.

## Model

| member | source | states |
|---|---|---|
| `Registry.FieldByName` | packages/core/lib/FormProvider.tsx:24-28 | Lookup finds a record exactly when one carries the name, and what it finds is the earliest record carrying it |
| `Registry.FindIndex` | packages/core/lib/FormProvider.tsx:130-133 | The index found holds the name and no earlier index does; "not found" exactly when no record holds it |
| `Registry.Register` | packages/core/lib/FormProvider.tsx:126-128 | Registration appends at the tail and leaves every earlier record in place |
| `Registry.FindIndexAfterRegister` | packages/core/lib/FormProvider.tsx:24-28 | After a registration, a taken name still finds its earliest record; the new record is found only under a fresh name |
| `Registry.Unregister` | packages/core/lib/FormProvider.tsx:130-138 | With no record of the name nothing changes; otherwise the registry is one record shorter |
| `Registry.UnregisterFirst` | packages/core/lib/FormProvider.tsx:130-138 | Removes exactly the record the lookup finds (the earliest with the name) and keeps the records before and after it in order |
| `Registry.UnregisterRegister` | packages/core/lib/FormProvider.tsx:126-138 | Registering under a fresh name, then unregistering it, restores the registry |
| `Registry.UnregisterRegisterTaken` | packages/core/lib/FormProvider.tsx:126-138 | If the name was taken, that unregistration removes the older record and the new one stays at the tail |
| `Registry.UnregisterUnique` | packages/core/lib/FormProvider.tsx:130-138 | On a duplicate-free registry, unregistering removes exactly that name from the set of names and keeps names unique |
| `PathCodec.Pick` | packages/core/lib/FormProvider.tsx:145-150 | The empty path reads the value itself; a path whose first property is missing, or whose root is not an object, reads `undefined` |
| `PathCodec.PickAppend` | packages/core/lib/useField.ts:26-29 | Reading a concatenated path reads the second part inside what the first part finds |
| `PathCodec.Put` | packages/core/lib/FormProvider.tsx:104-108 | An assignment into an object gives an object whose keys gain the path's first property; a root that is not an object stays as it is |
| `PathCodec.PickPut` | packages/core/lib/FormProvider.tsx:104-108 | After an assignment into an object, the value reads back at its path |
| `PathCodec.SetAt` | packages/core/lib/FormProvider.tsx:157 | A write at a dotted name reads back there; writing `undefined` changes nothing |
| `PathCodec.PickPutDiverge` | packages/core/lib/FormProvider.tsx:157 | A write at one dotted name leaves the value at every diverging name unchanged |
| `PathCodec.SplitDot` | packages/core/lib/useField.ts:22-24 | Joining a scope and a name with a dot concatenates their paths |
| `PathCodec.Flatten` | packages/core/lib/FormProvider.tsx:91-95 | The flat keys are exactly the dotted leaf keys, and no flat value is a non-empty object |
| `PathCodec.FlattenFlat` | packages/core/lib/FormProvider.tsx:92 | An object whose values are all leaves, dotted keys included, flattens to itself |
| `PathCodec.FlattenPick` | packages/core/lib/FormProvider.tsx:92 | For dot-free keys, each leaf path appears joined with dots, holding the value found at that path |
| `PathCodec.LeafKeysFromPaths` | packages/core/lib/FormProvider.tsx:92 | Every flat key is some leaf path joined with dots |
| `PathCodec.Inflate` | packages/core/lib/FormProvider.tsx:108 | Inflating onto an object gives an object; onto a non-object it changes nothing |
| `PathCodec.InflatePick` | packages/core/lib/FormProvider.tsx:104-108 | A value assigned under a name is found at its path after inflation, unless a later name writes to a non-diverging path |
| `PathLaws.InflateFlatten` | packages/core/lib/FormProvider.tsx:91-108 | Inflating into `{}` any listing of a well-formed object's flattening rebuilds the object, whatever the order and repetition |
| `PathLaws.FlattenInflate` | packages/core/lib/FormProvider.tsx:91-108 | Inflating leaf values under names whose paths pairwise diverge, then flattening, gives exactly those names and values |
| `PathLaws.InflateKeeps` | packages/core/lib/FormProvider.tsx:100-108 | Inflating into an object the values it already holds at existing properties leaves it unchanged |
| `PathCodec.InflateUntouched` | packages/core/lib/FormProvider.tsx:100-108 | A path that every assigned name diverges from keeps the starting object's value |
| `FormProvider.NewForm` | packages/core/lib/FormProvider.tsx:16-22 | A new form has no fields or errors; its snapshot is the initial data, or `{}` when none is given |
| `FormProvider.ReadField` | packages/core/lib/FormProvider.tsx:30-36 | A field reads through its custom reader if it has one; otherwise it reads the value at its path inside its input, `undefined` without a path and `""` for the empty path. `WriteField` and `ClearFieldValue` state the read-back |
| `FormProvider.WriteField` | packages/core/lib/FormProvider.tsx:30-47 | A custom setter gets the input and the value; its new input is kept and its answer is returned. Without one, a non-empty path is written by `dot.set`, so the value reads back at the path (`undefined` writes nothing). With neither, nothing changes and the result is `false`. Only the input changes |
| `FormProvider.ClearFieldValue` | packages/core/lib/FormProvider.tsx:49-58 | A custom clearer gets the input and `""`. Without one, `""` is written at a non-empty path and reads back there. With neither, nothing changes. Only the input changes |
| `FormProvider.ResetValue` | packages/core/lib/FormProvider.tsx:67 | The reset value is the truthy flat entry `data[name]`, otherwise `""` |
| `FormProvider.ResetField` | packages/core/lib/FormProvider.tsx:62-68 | A custom clearer gets the input and `data[name]` as it is. Without one, the reset value is written at a non-empty path and reads back there. With neither, nothing changes. Only the input changes |
| `FormProvider.Reset` | packages/core/lib/FormProvider.tsx:60-69 | The snapshot becomes `{}`. Every record, duplicates included, is reset from `data` as `ResetField` states, so a default-path field reads its reset value. Names, accessors and errors are kept |
| `FormProvider.SetData` | packages/core/lib/FormProvider.tsx:71-89 | The snapshot becomes `data`. The first record of each name gets the value at its dotted name through its custom setter or its path, as `WriteField` states. A default-path field then reads that value, and keeps its input when the value is absent. Later duplicates are untouched |
| `FormProvider.SetErrors` | packages/core/lib/FormProvider.tsx:91-95 | The error map's keys become the dotted leaf keys of the given object; fields and snapshot are kept |
| `FormProvider.GetErrors` | packages/core/lib/FormProvider.tsx:178-180 | The error map is returned with all its keys, including those holding `undefined`. It agrees with `getFieldError`, which reads `undefined` for a name the map lacks |
| `FormProvider.GetFieldError` | packages/core/lib/FormProvider.tsx:165-167 | The entry under the flat name, `undefined` when there is none; no dotted-path lookup |
| `FormProvider.SetFieldError` | packages/core/lib/FormProvider.tsx:165-170 | `getFieldError` then returns the error for that name and the same as before for every other name |
| `FormProvider.ClearFieldError` | packages/core/lib/FormProvider.tsx:140-142 | The name's entry becomes `undefined` with its key kept; every other entry is unchanged |
| `FormProvider.RegisterField` | packages/core/lib/FormProvider.tsx:126-128 | The registry gains the record at its tail, as `Register` states; snapshot and errors are kept |
| `FormProvider.UnregisterField` | packages/core/lib/FormProvider.tsx:130-138 | The registry loses the earliest record with the name, as `Unregister` and `UnregisterFirst` state; snapshot and errors are kept |
| `FormProvider.ParseFormData` | packages/core/lib/FormProvider.tsx:97-111 | Under `persistHiddenData` the snapshot is left holding the result; otherwise nothing changes; the result is an object |
| `FormProvider.Submit` | packages/core/lib/FormProvider.tsx:97-124 | The callback receives data holding each field's value at its dotted name unless a later name writes over it; elsewhere it shows the snapshot under `persistHiddenData` and nothing otherwise; under `persistHiddenData` the snapshot is left holding that data, otherwise the state is unchanged |
| `FormProvider.GetFieldValue` | packages/core/lib/FormProvider.tsx:145-153 | A registered name reads its earliest record. Otherwise it is the snapshot's value at the dotted name when that is neither `null` nor `undefined`, and `false` when it is |
| `FormProvider.SetFieldValue` | packages/core/lib/FormProvider.tsx:154-164 | Always writes the snapshot at the name and leaves diverging names alone. Returns "not registered" exactly for unknown names. Otherwise it changes only the earliest matching record: that record is written as `WriteField` states, and the write's result is returned |
| `FormProvider.ClearField` | packages/core/lib/FormProvider.tsx:171-177 | An unregistered name changes nothing. Otherwise only the earliest record changes: it is cleared as `ClearFieldValue` states, through its custom clearer or its path, and a default-path field then reads `""` |
| `FormProvider.GetFieldRef` | packages/core/lib/FormProvider.tsx:187-195 | `false` for an unregistered name, else the earliest record's input |
| `FormProvider.GetAfterSetUnregistered` | packages/core/lib/FormProvider.tsx:145-164 | For an unregistered name, a non-null value set through the handle is read back through the snapshot |
| `FormProvider.GetAfterSetRegistered` | packages/core/lib/FormProvider.tsx:145-164 | For a registered default-path field, a value set through the handle is read back from the field |
| `FormProvider.SubmitRegistered` | packages/core/lib/FormProvider.tsx:104-108 | The submitted data holds each field's value at its dotted name, unless a later record writes to a non-diverging path; a later duplicate wins. The library's ordering for dotted prefixes differs; see Left out |
| `FormProvider.SubmitFlattensToNames` | packages/core/lib/FormProvider.tsx:97-111 | Without `persistHiddenData`, and with pairwise diverging names and leaf values, the submitted data's flat keys are exactly the registered names, each with its field's value |
| `FormProvider.GetDataAfterSetData` | packages/core/lib/FormProvider.tsx:71-111 | `setData(x)` then `getData()` returns `x`, in both modes, when the fields are exactly x's leaves, read and written by path, none `undefined` |
| `FormProvider.GetDataTwice` | packages/core/lib/FormProvider.tsx:97-111 | A second `getData()` returns the same data and state; under `persistHiddenData` this needs pairwise diverging names |
| `FormProvider.GetFieldRefAfterRegister` | packages/core/lib/FormProvider.tsx:187-195 | After a registration, `getFieldRef` answers with the older record for a taken name, the new input for a fresh name, and `false` otherwise |
| `FormProvider.SubmitHidden` | packages/core/lib/FormProvider.tsx:97-111 | Where no registered name writes, the data shows the snapshot under `persistHiddenData` and nothing otherwise |
| `FormProvider.ResetBlanks` | packages/core/lib/FormProvider.tsx:60-69 | `reset()` with no argument blanks every default-path field |
| `FormProvider.ResetIgnoresNestedData` | packages/core/lib/FormProvider.tsx:60-67 | A default-path field whose name is not a literal key of the data is blanked by `reset`, whatever the nested data holds at its dotted path |
| `FormProvider.SetErrorsFlat` | packages/core/lib/FormProvider.tsx:178-183 | A flat error object, dotted keys included, is returned unchanged by `getErrors()` |
| `FormProvider.SetErrorsNested` | packages/core/lib/FormProvider.tsx:91-95 | A nested error object puts each leaf's error under its dotted name |
| `UseField.QualifiedName` | packages/core/lib/useField.ts:22-24 | Without a scope the name is unchanged; inside a scope its path is the scope's path followed by the name's |
| `UseField.Bind` | packages/core/lib/useField.ts:18-24 | Binding fails with the "name" message exactly when the name is empty. Otherwise the field name is the qualified name, the default value is the snapshot's value at that dotted name, and the error is the error map's entry under it |
| `UseField.ClearError` | packages/core/lib/useField.ts:35-37 | The field's error becomes `undefined` and its key is kept; every other name's error, the registry, the snapshot and `persistHiddenData` are unchanged |
| `UseField.Unmount` | packages/core/lib/useField.ts:39-42 | Unmounting unregisters the qualified name and keeps snapshot and errors |
| `UseField.BindScoped` | packages/core/lib/useField.ts:22-33 | In a scope, the default value is the name read inside the scope's part of the snapshot, and the error is the entry under the dotted name |
| `UseField.BindSeesSetFieldValue` | packages/core/lib/useField.ts:26-29 | The default value comes from the live snapshot: a value set through the handle is what a later binding starts with |
| `UseField.BindAfterReset` | packages/core/lib/useField.ts:26-29 | After `reset`, no binding finds a default value |
| `UseField.BindSeesNestedError` | packages/core/lib/useField.ts:31-33 | A scoped field sees the error that a nested error object holds for it |
| `UseField.MountUnmount` | packages/core/lib/useField.ts:39-42 | Mounting under a fresh name and then unmounting restores the registry |
| `UseField.MountUnmountTaken` | packages/core/lib/useField.ts:39-42 | If the name was taken, unmounting removes the older record and leaves the new one registered |

## Left out

- React mechanics are not modelled: `forwardRef`, `useImperativeHandle`, `useState` re-render scheduling, memoisation and the context provider (packages/core/lib/FormProvider.tsx:207-222).
- The error map is modelled as synchronous state. In the library, `getFieldError` and `getErrors` read the errors of the last render.
- Event handling in `handleSubmit` is not modelled: `preventDefault`, the `async` wrapper and the event argument. The callback itself is not modelled: `Submit` returns the data handed to it, and the library drops the callback's answer. The `{ reset }` helper handed to the callback is not modelled either; a callback that resets is `Reset` applied to the returned form.
- Aliasing beyond the snapshot is not modelled. `setData` keeps the caller's object, and under `persistHiddenData` the caller receives the snapshot object itself. Later mutation through either reference is not tracked.
- `PathCodec.Inflate`: in three cases `dot-object` does not overwrite, and the model overwrites instead. First, one assigned name is a strict dotted prefix of another, as with `a` and `a.b`. The library first assigns every flat key and only then expands `a.b` into whatever `a` holds. A falsy value there is replaced by `{}`, an object is merged into, and a truthy non-object makes it throw; the order of registration plays no part. The model applies the assignments in registry order, so the later one replaces the earlier. Second, the base holds a truthy non-object at a dotted prefix of a name, such as snapshot `{address: "old"}` with field `address.street`. Third, a dotted name assigns a value while the base already holds a non-empty object at that name.
- `FormProvider.ParseFormData`: under `persistHiddenData`, `dot.object` expands every dotted top-level key of the data, including keys the snapshot already held, such as `{"a.b": 1}` from the initial data or `setData`. The library turns that snapshot into `{a: {b: 1}}`; the model expands only the field entries and leaves such keys flat. Where they expand depends on JavaScript property order, which the model does not track. The claims below hold for snapshots whose top-level property names contain no dot.
- `FormProvider.Submit`: because of that gap, the snapshot's value seen at an unwritten path is the library's only for snapshots whose top-level property names contain no dot. Its claim about field values also differs from the library when an earlier-registered name extends a field's name. With fields `a.b` reading `"x"` and then `a` reading `""`, the model gives `a` the value `""`, while the library expands `a.b` afterwards and gives `{b: "x"}`. Where `a` holds an object, the library merges into it, and where it holds a truthy non-object, the library throws.
- `FormProvider.SubmitRegistered`: the same gap. With snapshot `{"a.b": 1}` and a field `a` reading `{b: 5}`, the library's expansion of the snapshot key rewrites `a.b` to 1. The lemma matches the library only for snapshots whose top-level property names contain no dot. It also differs from the library when an earlier-registered name extends field j's name, as with fields `a.b` then `a` under `Submit` above. The library expands the dotted name after all flat assignments, whatever the registration order.
- `FormProvider.SubmitHidden`: the same gap. A dotted top-level snapshot key is expanded by the library but not by the model, so the lemma matches the library only for snapshots whose top-level property names contain no dot.
- `PathLaws.InflateKeeps`: the third case applies here. Re-assigning a non-empty object the base already holds at a dotted name throws in the library, while the model keeps the object.
- `FormProvider.GetDataTwice`: under `persistHiddenData` it is proved only for pairwise diverging names. The library's second call still throws when a dotted field reads a non-empty object, for example a field `a.b` whose reader returns `{id: "5"}`. Its first call throws when the snapshot holds a truthy non-object at a dotted prefix of a name. The lemma states the model's overwriting result in both cases.
- `PathCodec.Flatten`: its keys are always the dotted leaf keys `dot.dot` writes. Its values match `dot-object` for well-formed objects, whose property names contain no dot (`PathCodec.FlattenPick`), and for flat objects (`PathCodec.FlattenFlat`). Otherwise the model reads a flat key through a literal property first, then through the shortest dotted prefix naming a non-empty object, so it can miss the leaf. For `{a: {x: 1}, "a.b": {c: 2}}` the library maps `a.b.c` to 2, but the model gives `undefined`. Where two leaves join to the same key, the library keeps the last in property order.
- `PathCodec.Put`: writing below a root that is not an object changes nothing. The library throws for `null`/`undefined`. Non-object inputs to `Flatten` produce no keys.
- Arrays, bracket syntax, `NaN`, non-integer numbers and other `dot-object` options are not modelled.
- `FormProvider.WriteField`: the value `dot.set` returns is not modelled. It is reported as `PathWritten`.
- `FormProvider.ResetValue`: `reset(null)` throws in the library. The model reads `null` as holding no keys.
- The `Scope` component, the test-only inputs, `packages/web/lib/Form.tsx`, the documentation and the build configuration are not part of this model.
- The model takes the ambient scope path as a parameter of `UseField.Bind`.
- The debugging `console.log` at packages/core/lib/useField.ts:27 is not modelled.

=== FILE: form_provider.dfy ===
/**
 The form engine (`FormProvider`): the state one mounted form owns — the
 field registry, the current-data snapshot and the error map — and every
 operation on it, including the imperative handle a host holds. Each
 operation is a pure transition from one `Form` to the next; where the
 source returns something, the transition returns it next to the new state.
 */
module FormProvider {
  import opened Wrappers
  import opened PathCodec
  import opened Registry
  import opened PathLaws

  /** The state of one mounted form. */
  datatype Form = Form(
    fields: seq<Field>,             // `fields.current`, in registration order
    current: Value,                 // `currentData.current`, the data snapshot
    errors: map<string, Value>,     // the error map, keyed by flat field name
    persistHiddenData: bool)

  /** A transition's new state together with what the operation returned. */
  datatype Step<T> = Step(form: Form, result: T)

  /** What writing a field's value returned. The first two are JavaScript's
      `false`; `PathWritten` stands for whatever `dot.set` returned. */
  datatype WriteResult =
    | NotRegistered
    | NoAccessor
    | CustomResult(returned: Value)
    | PathWritten

  /** A field after a write, and what the write returned. */
  datatype Written = Written(field: Field, result: WriteResult)

  /** A field read and written by its path alone: no custom accessor, a
      non-empty path, and an input state that is an object. */
  predicate DefaultAccess(f: Field) {
    && f.getValue.None? && f.setValue.None? && f.clearValue.None?
    && f.path.Some? && f.path.value != ""
    && f.ref.Obj?
  }

  /** Two records that differ at most in their input state. */
  ghost predicate SameButRef(f: Field, g: Field) {
    g == f.(ref := g.ref)
  }

  /** The form a provider starts with: no fields, no errors, and the initial
      data (`{}` when none is given) as snapshot. */
  function NewForm(initialData: Value, persistHiddenData: bool): (st: Form)
    ensures st.fields == [] && st.errors == map[] && st.persistHiddenData == persistHiddenData
    ensures st.current == if initialData.Undef? then Empty else initialData
    ensures st.current.Obj? <== initialData.Undef? || initialData.Obj?
  {
    Form([], if initialData.Undef? then Empty else initialData, map[], persistHiddenData)
  }

  // ---------------------------------------------------------------------
  // Reading and writing one field's input
  // ---------------------------------------------------------------------

  /** The internal `getFieldValue`: the custom reader if there is one, else
      the value at the field's path inside its input; with no path the
      result is the path itself (`undefined` or `""`). */
  function ReadField(f: Field): (r: Value)
    ensures f.getValue.Some? ==> r == f.getValue.value(f.ref)
    ensures f.getValue.None? && f.path.Some? && f.path.value != "" ==> r == Pick(Split(f.path.value), f.ref)
    ensures f.getValue.None? && f.path.None? ==> r == Undef
    ensures f.getValue.None? && f.path == Some("") ==> r == Str("")
  {
    if f.getValue.Some? then f.getValue.value(f.ref)
    else match f.path
      case None => Undef
      case Some(p) => if p == "" then Str("") else Pick(Split(p), f.ref)
  }

  /** The internal `setFieldValue`: the custom writer if there is one, else
      `dot.set` at a non-empty path, else nothing and `false`. */
  function WriteField(f: Field, v: Value): (w: Written)
    ensures SameButRef(f, w.field)
    ensures !w.result.NotRegistered?
    ensures DefaultAccess(f) ==> DefaultAccess(w.field)
    ensures DefaultAccess(f) && !v.Undef? ==> ReadField(w.field) == v
    ensures f.setValue.None? && v.Undef? ==> w.field == f
    ensures f.setValue.Some? ==>
      var out := f.setValue.value(f.ref, v);
      w.field == f.(ref := out.ref) && w.result == CustomResult(out.returned)
    ensures f.setValue.None? && f.path.Some? && f.path.value != "" ==>
      && w.result == PathWritten
      && (f.ref.Obj? && !v.Undef? ==> Pick(Split(f.path.value), w.field.ref) == v)
    ensures f.setValue.None? && (f.path.None? || f.path.value == "") ==> w == Written(f, NoAccessor)
  {
    if f.setValue.Some? then
      var out := f.setValue.value(f.ref, v);
      Written(f.(ref := out.ref), CustomResult(out.returned))
    else if f.path.Some? && f.path.value != "" then
      Written(f.(ref := SetAt(Split(f.path.value), v, f.ref)), PathWritten)
    else
      Written(f, NoAccessor)
  }

  /** The internal `clearFieldValue`: the custom clearer called with `""`,
      else `""` written at a non-empty path. */
  function ClearFieldValue(f: Field): (g: Field)
    ensures SameButRef(f, g)
    ensures DefaultAccess(f) ==> DefaultAccess(g) && ReadField(g) == Str("")
    ensures f.clearValue.None? && (f.path.None? || f.path.value == "") ==> g == f
    ensures f.clearValue.Some? ==> g == f.(ref := f.clearValue.value(f.ref, Str("")))
    ensures f.clearValue.None? && f.path.Some? && f.path.value != "" && f.ref.Obj? ==>
      Pick(Split(f.path.value), g.ref) == Str("")
  {
    if f.clearValue.Some? then f.(ref := f.clearValue.value(f.ref, Str("")))
    else if f.path.Some? && f.path.value != "" then f.(ref := SetAt(Split(f.path.value), Str(""), f.ref))
    else f
  }

  /** The value `reset` writes into a field: `data[name]` looked up as a
      flat key, or `""` when that is falsy. */
  function ResetValue(data: Value, name: string): (v: Value)
    ensures Truthy(v) || v == Str("")
    ensures Truthy(Prop(data, name)) ==> v == Prop(data, name)
    ensures !Truthy(Prop(data, name)) ==> v == Str("")
  {
    var d := Prop(data, name);
    if Truthy(d) then d else Str("")
  }

  /** What `reset` does to one field: the custom clearer gets `data[name]`
      as it is; otherwise the reset value is written at a non-empty path. */
  function ResetField(f: Field, data: Value): (g: Field)
    ensures SameButRef(f, g)
    ensures DefaultAccess(f) ==> DefaultAccess(g) && ReadField(g) == ResetValue(data, f.name)
    ensures f.clearValue.Some? ==> g == f.(ref := f.clearValue.value(f.ref, Prop(data, f.name)))
    ensures f.clearValue.None? && f.path.Some? && f.path.value != "" && f.ref.Obj? ==>
      Pick(Split(f.path.value), g.ref) == ResetValue(data, f.name)
    ensures f.clearValue.None? && (f.path.None? || f.path.value == "") ==> g == f
  {
    if f.clearValue.Some? then f.(ref := f.clearValue.value(f.ref, Prop(data, f.name)))
    else if f.path.Some? && f.path.value != "" then
      f.(ref := SetAt(Split(f.path.value), ResetValue(data, f.name), f.ref))
    else f
  }

  // ---------------------------------------------------------------------
  // Whole-form operations
  // ---------------------------------------------------------------------

  /** `reset(data = {})`: empties the snapshot and resets every registered
      field from the flat keys of `data`. */
  function Reset(st: Form, data: Value): (r: Form)
    ensures r.current == Empty
    ensures r.errors == st.errors && r.persistHiddenData == st.persistHiddenData
    ensures |r.fields| == |st.fields|
    ensures forall i | 0 <= i < |st.fields| :: SameButRef(st.fields[i], r.fields[i])
    ensures forall i | 0 <= i < |st.fields| && DefaultAccess(st.fields[i]) ::
      ReadField(r.fields[i]) == ResetValue(data, st.fields[i].name)
    ensures forall i | 0 <= i < |st.fields| :: r.fields[i] == ResetField(st.fields[i], data)
  {
    var fs := st.fields;
    st.(current := Empty, fields := seq(|fs|, i requires 0 <= i < |fs| => ResetField(fs[i], data)))
  }

  /** True if `i` is the earliest record carrying its name: the one
      `getFieldByName` answers with. */
  predicate FirstOfName(fs: seq<Field>, i: nat)
    requires i < |fs|
  {
    FindIndex(fs, fs[i].name) == Some(i)
  }

  /** `setData(data)`: the snapshot becomes `data`, and for every registered
      name the value found at that dotted name in `data` is written into
      the earliest record carrying the name. */
  function SetData(st: Form, data: Value): (r: Form)
    ensures r.current == data
    ensures r.errors == st.errors && r.persistHiddenData == st.persistHiddenData
    ensures |r.fields| == |st.fields|
    ensures forall i | 0 <= i < |st.fields| :: SameButRef(st.fields[i], r.fields[i])
    ensures forall i | 0 <= i < |st.fields| && !FirstOfName(st.fields, i) :: r.fields[i] == st.fields[i]
    ensures forall i | 0 <= i < |st.fields| && FirstOfName(st.fields, i) && DefaultAccess(st.fields[i]) ::
      var v := Pick(Split(st.fields[i].name), data);
      if v.Undef? then r.fields[i] == st.fields[i] else ReadField(r.fields[i]) == v
    ensures forall i | 0 <= i < |st.fields| && FirstOfName(st.fields, i) ::
      r.fields[i] == WriteField(st.fields[i], Pick(Split(st.fields[i].name), data)).field
  {
    var fs := st.fields;
    st.(current := data,
        fields := seq(|fs|, i requires 0 <= i < |fs| =>
          if FirstOfName(fs, i) then WriteField(fs[i], Pick(Split(fs[i].name), data)).field else fs[i]))
  }

  /** `setErrors(obj)`: the error map becomes the flattening of `obj`. */
  function SetErrors(st: Form, obj: Value): (r: Form)
    ensures r.fields == st.fields && r.current == st.current
    ensures r.errors.Keys == LeafKeys(obj)
    ensures r.persistHiddenData == st.persistHiddenData
  {
    st.(errors := Flatten(obj))
  }

  /** `getErrors()`: the whole error map; a name it lacks is what
      `getFieldError` reports as `undefined`. */
  function GetErrors(st: Form): (r: map<string, Value>)
    ensures r.Keys == st.errors.Keys
    ensures forall k :: GetFieldError(st, k) == if k in r then r[k] else Undef
  {
    st.errors
  }

  /** `getFieldError(name)`: the entry under the flat name, `undefined` if absent. */
  function GetFieldError(st: Form, n: string): (r: Value)
    ensures n in st.errors ==> r == st.errors[n]
    ensures n !in st.errors ==> r == Undef
  {
    if n in st.errors then st.errors[n] else Undef
  }

  /** `setFieldError(name, error)`: changes the entry under that name only. */
  function SetFieldError(st: Form, n: string, e: Value): (r: Form)
    ensures GetFieldError(r, n) == e
    ensures forall k | k != n :: GetFieldError(r, k) == GetFieldError(st, k)
    ensures r.errors.Keys == st.errors.Keys + {n}
    ensures r.fields == st.fields && r.current == st.current
    ensures r.persistHiddenData == st.persistHiddenData
  {
    st.(errors := st.errors[n := e])
  }

  /** `clearFieldError(name)`: sets the entry under that name to `undefined`,
      keeping the key and every other entry. */
  function ClearFieldError(st: Form, n: string): (r: Form)
    ensures GetFieldError(r, n) == Undef && n in r.errors
    ensures forall k | k != n :: GetFieldError(r, k) == GetFieldError(st, k)
    ensures r.errors.Keys == st.errors.Keys + {n}
    ensures r.fields == st.fields && r.current == st.current
    ensures r.persistHiddenData == st.persistHiddenData
  {
    st.(errors := st.errors[n := Undef])
  }

  /** `registerField(field)`: the record joins the registry at the tail. */
  function RegisterField(st: Form, f: Field): (r: Form)
    ensures r.fields == Register(st.fields, f)
    ensures r.current == st.current && r.errors == st.errors && r.persistHiddenData == st.persistHiddenData
  {
    st.(fields := Register(st.fields, f))
  }

  /** `unregisterField(name)`: the earliest record carrying the name leaves
      the registry. */
  function UnregisterField(st: Form, n: string): (r: Form)
    ensures r.fields == Unregister(st.fields, n)
    ensures r.current == st.current && r.errors == st.errors && r.persistHiddenData == st.persistHiddenData
  {
    st.(fields := Unregister(st.fields, n))
  }

  /** The flat assignments `data[field.name] = getFieldValue(field)`, in
      registry order. */
  function Entries(fs: seq<Field>): (es: seq<(string, Value)>)
    ensures |es| == |fs|
    ensures forall i | 0 <= i < |fs| :: es[i].0 == fs[i].name && es[i].1 == ReadField(fs[i])
  {
    seq(|fs|, i requires 0 <= i < |fs| => (fs[i].name, ReadField(fs[i])))
  }

  /** `parseFormData` (also the handle's `getData`): starts from the
      snapshot object itself under `persistHiddenData`, else from `{}`,
      assigns every registered field's value under its name and inflates
      the dotted names. Starting from the snapshot object means the
      snapshot is left holding the result. */
  function ParseFormData(st: Form): (r: Step<Value>)
    ensures r.form.fields == st.fields && r.form.errors == st.errors
    ensures r.form.persistHiddenData == st.persistHiddenData
    ensures st.persistHiddenData ==> r.form.current == r.result
    ensures !st.persistHiddenData ==> r.form == st
    ensures !st.persistHiddenData || st.current.Obj? ==> r.result.Obj?
  {
    var base := if st.persistHiddenData then st.current else Empty;
    var data := Inflate(base, Entries(st.fields));
    if st.persistHiddenData then Step(st.(current := data), data) else Step(st, data)
  }

  /** No record after position `j` writes where record `j` does. */
  predicate LastWriter(fs: seq<Field>, j: nat)
    requires j < |fs|
  {
    forall i | j < i < |fs| :: Diverge(Split(fs[i].name), Split(fs[j].name))
  }

  /** No record writes at or along path `q`. */
  predicate Unwritten(fs: seq<Field>, q: Path) {
    forall i | 0 <= i < |fs| :: Diverge(Split(fs[i].name), q)
  }

  /** `handleSubmit` / `submitForm()`: aggregates the data and hands it to
      the submit callback. The result is that payload; the library drops
      whatever the callback answers. The payload holds each field's value
      at its dotted name unless a later name writes over it, and elsewhere
      the snapshot under `persistHiddenData` and nothing otherwise. */
  function Submit(st: Form): (r: Step<Value>)
    ensures r.form.fields == st.fields && r.form.errors == st.errors
    ensures r.form.persistHiddenData == st.persistHiddenData
    ensures st.persistHiddenData ==> r.form.current == r.result
    ensures !st.persistHiddenData ==> r.form == st
    ensures !st.persistHiddenData || st.current.Obj? ==>
      forall j | 0 <= j < |st.fields| && LastWriter(st.fields, j) ::
        Pick(Split(st.fields[j].name), r.result) == ReadField(st.fields[j])
    ensures forall q | Unwritten(st.fields, q) ::
      Pick(q, r.result) == if st.persistHiddenData then Pick(q, st.current) else Pick(q, Empty)
  {
    var parsed := ParseFormData(st);
    assert !st.persistHiddenData || st.current.Obj? ==>
      forall j | 0 <= j < |st.fields| && LastWriter(st.fields, j) ::
        Pick(Split(st.fields[j].name), parsed.result) == ReadField(st.fields[j])
    by {
      if !st.persistHiddenData || st.current.Obj? {
        forall j | 0 <= j < |st.fields| && LastWriter(st.fields, j)
          ensures Pick(Split(st.fields[j].name), parsed.result) == ReadField(st.fields[j])
        {
          SubmitRegistered(st, j);
        }
      }
    }
    assert forall q | Unwritten(st.fields, q) ::
      Pick(q, parsed.result) == if st.persistHiddenData then Pick(q, st.current) else Pick(q, Empty)
    by {
      forall q | Unwritten(st.fields, q)
        ensures Pick(q, parsed.result) == if st.persistHiddenData then Pick(q, st.current) else Pick(q, Empty)
      {
        SubmitHidden(st, q);
      }
    }
    parsed
  }

  // ---------------------------------------------------------------------
  // The imperative handle
  // ---------------------------------------------------------------------

  /** `getFieldValue(name)`: a registered name reads its earliest record;
      otherwise the snapshot at the dotted name, or `false` when that is
      `null` or `undefined`. */
  function GetFieldValue(st: Form, n: string): (r: Value)
    ensures Registered(st.fields, n) ==> r == ReadField(FieldByName(st.fields, n).value)
    ensures !Registered(st.fields, n) ==> !Nullish(r)
    ensures !Registered(st.fields, n) && Nullish(Pick(Split(n), st.current)) ==> r == Bool(false)
    ensures !Registered(st.fields, n) && !Nullish(Pick(Split(n), st.current)) ==> r == Pick(Split(n), st.current)
  {
    match FieldByName(st.fields, n)
    case Some(f) => ReadField(f)
    case None =>
      var v := Pick(Split(n), st.current);
      if Nullish(v) then Bool(false) else v
  }

  /** `setFieldValue(name, value)`: always writes the value into the
      snapshot at the dotted name, then into the earliest record carrying
      the name, if any. */
  function SetFieldValue(st: Form, n: string, v: Value): (r: Step<WriteResult>)
    ensures r.result.NotRegistered? <==> !Registered(st.fields, n)
    ensures !v.Undef? && st.current.Obj? ==> Pick(Split(n), r.form.current) == v
    ensures forall q :: Diverge(Split(n), q) ==> Pick(q, r.form.current) == Pick(q, st.current)
    ensures !Registered(st.fields, n) ==> r.form.fields == st.fields
    ensures Registered(st.fields, n) ==>
      var i := FindIndex(st.fields, n).value;
      && |r.form.fields| == |st.fields|
      && (forall j | 0 <= j < |st.fields| && j != i :: r.form.fields[j] == st.fields[j])
      && SameButRef(st.fields[i], r.form.fields[i])
      && (DefaultAccess(st.fields[i]) && !v.Undef? ==> ReadField(r.form.fields[i]) == v)
      && r.form.fields[i] == WriteField(st.fields[i], v).field
      && r.result == WriteField(st.fields[i], v).result
    ensures r.form.errors == st.errors && r.form.persistHiddenData == st.persistHiddenData
  {
    var current := SetAt(Split(n), v, st.current);
    assert forall q :: Diverge(Split(n), q) ==> Pick(q, current) == Pick(q, st.current) by {
      forall q | Diverge(Split(n), q)
        ensures Pick(q, current) == Pick(q, st.current)
      {
        if !v.Undef? {
          PickPutDiverge(Split(n), q, v, st.current);
        }
      }
    }
    match FindIndex(st.fields, n)
    case None => Step(st.(current := current), NotRegistered)
    case Some(i) =>
      var w := WriteField(st.fields[i], v);
      Step(st.(current := current, fields := st.fields[i := w.field]), w.result)
  }

  /** `clearField(name)`: clears the earliest record carrying the name;
      nothing happens for an unregistered name. */
  function ClearField(st: Form, n: string): (r: Form)
    ensures !Registered(st.fields, n) ==> r == st
    ensures Registered(st.fields, n) ==>
      var i := FindIndex(st.fields, n).value;
      && |r.fields| == |st.fields|
      && (forall j | 0 <= j < |st.fields| && j != i :: r.fields[j] == st.fields[j])
      && SameButRef(st.fields[i], r.fields[i])
      && (DefaultAccess(st.fields[i]) ==> ReadField(r.fields[i]) == Str(""))
      && r.fields[i] == ClearFieldValue(st.fields[i])
    ensures r.current == st.current && r.errors == st.errors
    ensures r.persistHiddenData == st.persistHiddenData
  {
    match FindIndex(st.fields, n)
    case None => st
    case Some(i) => st.(fields := st.fields[i := ClearFieldValue(st.fields[i])])
  }

  /** `getFieldRef(name)`: the input of the earliest record carrying the
      name, `false` for an unregistered name. */
  function GetFieldRef(st: Form, n: string): (r: Value)
    ensures !Registered(st.fields, n) ==> r == Bool(false)
    ensures Registered(st.fields, n) ==> r == st.fields[FindIndex(st.fields, n).value].ref
  {
    match FieldByName(st.fields, n)
    case None => Bool(false)
    case Some(f) => f.ref
  }

  // ---------------------------------------------------------------------
  // Properties relating several operations
  // ---------------------------------------------------------------------

  /** A value set under an unregistered name is what reading the name gives
      back, through the snapshot. */
  lemma GetAfterSetUnregistered(st: Form, n: string, v: Value)
    requires !Registered(st.fields, n)
    requires !Nullish(v) && st.current.Obj?
    ensures GetFieldValue(SetFieldValue(st, n, v).form, n) == v
  {
  }

  /** A value set under a registered name with default access is what
      reading the name gives back, through the field's input. */
  lemma GetAfterSetRegistered(st: Form, n: string, v: Value)
    requires Registered(st.fields, n)
    requires DefaultAccess(FieldByName(st.fields, n).value)
    requires !v.Undef?
    ensures GetFieldValue(SetFieldValue(st, n, v).form, n) == v
  {
    var r := SetFieldValue(st, n, v).form;
    var i := FindIndex(st.fields, n).value;
    assert r.fields[i].name == n;
    FindIndexIsFirst(r.fields, n, i);
  }

  /** After a registration, `getFieldRef` answers with the older record for
      a taken name, with the new record's input for its fresh name, and
      `false` otherwise. */
  lemma GetFieldRefAfterRegister(st: Form, f: Field, n: string)
    ensures GetFieldRef(RegisterField(st, f), n) ==
      if Registered(st.fields, n) then GetFieldRef(st, n)
      else if f.name == n then f.ref
      else Bool(false)
  {
    FindIndexAfterRegister(st.fields, f, n);
  }

  /** The submitted data holds each registered field's value at its dotted
      name, provided every later record writes somewhere else; in particular
      a later duplicate of a name wins over an earlier one. */
  lemma SubmitRegistered(st: Form, j: nat)
    requires j < |st.fields|
    requires !st.persistHiddenData || st.current.Obj?
    requires LastWriter(st.fields, j)
    ensures Pick(Split(st.fields[j].name), ParseFormData(st).result) == ReadField(st.fields[j])
  {
    var es := Entries(st.fields);
    var base := if st.persistHiddenData then st.current else Empty;
    InflatePick(base, es, j);
  }

  /** A dotted path no registered name writes to: the submitted data shows
      the snapshot's value there under `persistHiddenData`, and nothing
      otherwise. Hidden (unmounted) fields survive only in the first case. */
  lemma SubmitHidden(st: Form, q: Path)
    requires Unwritten(st.fields, q)
    ensures Pick(q, ParseFormData(st).result) ==
      if st.persistHiddenData then Pick(q, st.current) else Pick(q, Empty)
  {
    var es := Entries(st.fields);
    var base := if st.persistHiddenData then st.current else Empty;
    InflateUntouched(base, es, q);
  }

  /** Resetting without data blanks every field read and written by path. */
  lemma ResetBlanks(st: Form, i: nat)
    requires i < |st.fields| && DefaultAccess(st.fields[i])
    ensures ReadField(Reset(st, Undef).fields[i]) == Str("")
  {
  }

  /** `reset` looks `data` up by the flat field name, not by dotted path: a
      field whose name is not a literal key of `data` is blanked, whatever
      the nested data holds at its dotted path. */
  lemma ResetIgnoresNestedData(st: Form, data: Value, i: nat)
    requires i < |st.fields| && DefaultAccess(st.fields[i])
    requires !data.Obj? || st.fields[i].name !in data.fields
    ensures ReadField(Reset(st, data).fields[i]) == Str("")
  {
  }

  /** Errors given as a flat object, dotted keys included, read back
      unchanged from `getErrors`. */
  lemma SetErrorsFlat(st: Form, m: map<string, Value>)
    requires forall k | k in m :: !IsBranch(m[k])
    ensures GetErrors(SetErrors(st, Obj(m))) == m
  {
    FlattenFlat(m);
  }

  /** Errors given as a nested object reach each leaf's dotted name, where a
      scoped field looks for them. */
  lemma SetErrorsNested(st: Form, obj: Value, p: Path)
    requires WellFormed(obj) && p in LeafPaths(obj)
    ensures GetFieldError(SetErrors(st, obj), Join(p)) == Pick(p, obj)
  {
    FlattenPick(obj, p);
  }

  /** Without `persistHiddenData`, suppose the field names' paths pairwise
      diverge and no field reads a non-empty object. Then the submitted data
      flattens back to exactly the registered names, each holding its
      field's value. */
  lemma SubmitFlattensToNames(st: Form)
    requires !st.persistHiddenData
    requires forall i | 0 <= i < |st.fields| :: !IsBranch(ReadField(st.fields[i]))
    requires forall i, j | 0 <= i < j < |st.fields| :: Diverge(Split(st.fields[i].name), Split(st.fields[j].name))
    ensures Flatten(ParseFormData(st).result).Keys == Names(st.fields)
    ensures forall i | 0 <= i < |st.fields| ::
      Flatten(ParseFormData(st).result)[st.fields[i].name] == ReadField(st.fields[i])
  {
    var fs := st.fields;
    var es := Entries(fs);
    forall e | e in es
      ensures !IsBranch(e.1)
    {
      var i :| 0 <= i < |es| && es[i] == e;
    }
    assert ParseFormData(st).result == Inflate(Empty, es);
    FlattenInflate(es);
    NamesListed(fs, Flatten(Inflate(Empty, es)));
  }

  /** A flat map that the aggregation's assignments list has the field
      names as keys, each holding its field's value. */
  lemma NamesListed(fs: seq<Field>, m: map<string, Value>)
    requires ListsEntries(Entries(fs), m)
    ensures m.Keys == Names(fs)
    ensures forall i | 0 <= i < |fs| :: m[fs[i].name] == ReadField(fs[i])
  {
    var es := Entries(fs);
    forall i | 0 <= i < |fs|
      ensures fs[i].name in m && m[fs[i].name] == ReadField(fs[i])
    {
      assert es[i] in es;
    }
    forall s | s in m
      ensures s in Names(fs)
    {
      var i :| 0 <= i < |es| && es[i] == (s, m[s]);
    }
  }

  /** After `setData(x)`, a field named by a leaf of `x` reads that leaf,
      provided it is the only record with its name, is read and written by
      path, and the leaf is not `undefined`. */
  lemma SetDataReadsLeaf(st: Form, x: Value, i: nat)
    requires x.Obj? && WellFormed(x)
    requires UniqueNames(st.fields) && i < |st.fields| && DefaultAccess(st.fields[i])
    requires st.fields[i].name in LeafKeys(x) && !Flatten(x)[st.fields[i].name].Undef?
    ensures SetData(st, x).fields[i].name == st.fields[i].name
    ensures Split(st.fields[i].name) in LeafPaths(x)
    ensures ReadField(SetData(st, x).fields[i]) == Flatten(x)[st.fields[i].name]
    ensures Flatten(x)[st.fields[i].name] == Pick(Split(st.fields[i].name), x)
  {
    var n := st.fields[i].name;
    FindIndexIsFirst(st.fields, n, i);
    LeafKeysFromPaths(x, n);
    var p :| p in LeafPaths(x) && Join(p) == n;
    LeafPathsDotFree(x, p);
    SplitJoin(p);
    FlattenPick(x, p);
  }

  /** Assignments made, one per field, of the flattening's value under
      each field's name list that flattening when the names are exactly its
      keys. */
  lemma ListsByName(fs: seq<Field>, es: seq<(string, Value)>, x: Value)
    requires Names(fs) == LeafKeys(x) && |es| == |fs|
    requires forall i | 0 <= i < |fs| ::
      && es[i] == (fs[i].name, Flatten(x)[fs[i].name])
      && Split(fs[i].name) in LeafPaths(x) && Flatten(x)[fs[i].name] == Pick(Split(fs[i].name), x)
    ensures ListsEntries(es, Flatten(x))
    ensures forall e | e in es :: Present(Split(e.0), x) && e.1 == Pick(Split(e.0), x)
  {
    var m := Flatten(x);
    forall e | e in es
      ensures e.0 in m && m[e.0] == e.1
      ensures Present(Split(e.0), x) && e.1 == Pick(Split(e.0), x)
    {
      var i :| 0 <= i < |es| && es[i] == e;
      LeafPathPresent(Split(e.0), x);
    }
    forall s | s in m
      ensures (s, m[s]) in es
    {
      assert Registered(fs, s);
      var i :| 0 <= i < |fs| && fs[i].name == s;
      assert es[i] == (s, m[s]);
    }
  }

  /** After `setData(x)` on fields that are exactly the leaves of `x`, the
      assignments aggregation makes list the flattening of `x`. */
  lemma EntriesAfterSetData(st: Form, x: Value)
    requires x.Obj? && WellFormed(x)
    requires UniqueNames(st.fields) && Names(st.fields) == LeafKeys(x)
    requires forall i | 0 <= i < |st.fields| :: DefaultAccess(st.fields[i])
    requires forall s | s in LeafKeys(x) :: !Flatten(x)[s].Undef?
    ensures ListsEntries(Entries(SetData(st, x).fields), Flatten(x))
    ensures forall e | e in Entries(SetData(st, x).fields) ::
      Present(Split(e.0), x) && e.1 == Pick(Split(e.0), x)
  {
    var fs := st.fields;
    var es := Entries(SetData(st, x).fields);
    forall i | 0 <= i < |fs|
      ensures es[i] == (fs[i].name, Flatten(x)[fs[i].name])
      ensures Split(fs[i].name) in LeafPaths(x) && Flatten(x)[fs[i].name] == Pick(Split(fs[i].name), x)
    {
      assert fs[i].name in Names(fs);
      SetDataReadsLeaf(st, x, i);
    }
    ListsByName(fs, es, x);
  }

  /** `setData(x)` followed by `getData()` gives `x` back, with or without
      `persistHiddenData`. This holds when the registered fields are
      exactly the leaves of `x`: one field, read and written by path, per
      dotted leaf name, and no leaf `undefined`. */
  lemma GetDataAfterSetData(st: Form, x: Value)
    requires x.Obj? && WellFormed(x)
    requires UniqueNames(st.fields) && Names(st.fields) == LeafKeys(x)
    requires forall i | 0 <= i < |st.fields| :: DefaultAccess(st.fields[i])
    requires forall s | s in LeafKeys(x) :: !Flatten(x)[s].Undef?
    ensures ParseFormData(SetData(st, x)).result == x
  {
    var st2 := SetData(st, x);
    var es := Entries(st2.fields);
    EntriesAfterSetData(st, x);
    if st.persistHiddenData {
      assert ParseFormData(st2).result == Inflate(x, es);
      InflateKeeps(x, es);
    } else {
      assert ParseFormData(st2).result == Inflate(Empty, es);
      InflateFlatten(x, es);
    }
  }

  /** Calling `getData()` twice gives the same data and leaves the same
      state. Without `persistHiddenData` nothing changes at all. With it,
      the first call stores the data in the snapshot; writing the same
      fields into it again changes nothing, provided the field names'
      paths pairwise diverge. */
  lemma GetDataTwice(st: Form)
    requires st.persistHiddenData ==> st.current.Obj?
    requires st.persistHiddenData ==>
      forall i, j | 0 <= i < j < |st.fields| :: Diverge(Split(st.fields[i].name), Split(st.fields[j].name))
    ensures ParseFormData(ParseFormData(st).form) == ParseFormData(st)
  {
    if st.persistHiddenData {
      var es := Entries(st.fields);
      var d := Inflate(st.current, es);
      forall e | e in es
        ensures Present(Split(e.0), d) && e.1 == Pick(Split(e.0), d)
      {
        var j :| 0 <= j < |es| && es[j] == e;
        forall i | j < i < |es|
          ensures Diverge(Split(es[i].0), Split(es[j].0))
        {
          var m :| 0 <= m < |Split(es[j].0)| && m < |Split(es[i].0)| && Split(es[j].0)[m] != Split(es[i].0)[m];
        }
        InflatePick(st.current, es, j);
        InflatePresent(st.current, es, j);
      }
      InflateKeeps(d, es);
    }
  }
}

=== FILE: path_codec.dfy ===
/**
 The path codec: JavaScript-like values, dotted names and the four path
 operations the form engine performs on them (read by path, write by path,
 flatten a nested object into dotted keys, fill dotted keys back into a
 nested object). It stands in for the `dot-object` library the form engine
 calls; only plain objects and dot-separated names are modelled.
 */
module PathCodec {

  /** A JavaScript value as the form engine sees it. Arrays, functions and
      DOM nodes are not distinguished from plain objects. */
  datatype Value =
    | Undef                              // `undefined`
    | Null
    | Bool(b: bool)
    | Num(n: int)
    | Str(s: string)
    | Obj(fields: map<string, Value>)    // a plain object, keyed by own property name

  /** The empty object `{}`. */
  const Empty: Value := Obj(map[])

  /** JavaScript truthiness (`NaN` is not modelled). */
  predicate Truthy(v: Value) {
    match v
    case Undef => false
    case Null => false
    case Bool(b) => b
    case Num(n) => n != 0
    case Str(s) => s != ""
    case Obj(_) => true
  }

  /** The values on which `??` falls through to its right operand. */
  predicate Nullish(v: Value) {
    v.Undef? || v.Null?
  }

  /** A non-empty object: the only kind of value that flattening descends into. */
  predicate IsBranch(v: Value) {
    v.Obj? && v.fields != map[]
  }

  /** The flat property read `v[k]`: no path interpretation of `k`. */
  function Prop(v: Value, k: string): (r: Value)
    ensures r != Undef ==> v.Obj? && k in v.fields && r == v.fields[k]
    ensures v.Obj? && k in v.fields ==> r == v.fields[k]
  {
    if v.Obj? && k in v.fields then v.fields[k] else Undef
  }

  // ---------------------------------------------------------------------
  // Dotted names and paths
  // ---------------------------------------------------------------------

  /** A path: the segments of a dotted name. */
  type Path = seq<string>

  predicate DotFree(s: string) {
    forall i | 0 <= i < |s| :: s[i] != '.'
  }

  predicate DotFreeSegments(p: Path) {
    forall i | 0 <= i < |p| :: DotFree(p[i])
  }

  /** Cuts a dotted name at every '.'; empty segments are kept, so the
      result always has one more segment than the name has dots. */
  function Split(s: string): (p: Path)
    ensures |p| >= 1
    ensures DotFreeSegments(p)
  {
    if s == [] then [""]
    else if s[0] == '.' then [""] + Split(s[1..])
    else
      var rest := Split(s[1..]);
      [[s[0]] + rest[0]] + rest[1..]
  }

  /** Glues segments back together with '.'. */
  function Join(p: Path): string
  {
    if |p| == 0 then ""
    else if |p| == 1 then p[0]
    else p[0] + "." + Join(p[1..])
  }

  /** Joining the pieces of a name gives the name back. */
  lemma {:induction false} JoinSplit(s: string)
    ensures Join(Split(s)) == s
  {
    if s == [] {
    } else if s[0] == '.' {
      JoinSplit(s[1..]);
      assert s == "." + s[1..];
    } else {
      var rest := Split(s[1..]);
      JoinSplit(s[1..]);
      if |rest| == 1 {
        assert s == [s[0]] + s[1..];
      } else {
        assert Join(rest) == rest[0] + "." + Join(rest[1..]);
        assert s == [s[0]] + s[1..];
      }
    }
  }

  /** Composing names with '.' concatenates their paths; this is what makes
      a scoped field name address the scope's sub-object. */
  lemma {:induction false} SplitDot(a: string, b: string)
    ensures Split(a + "." + b) == Split(a) + Split(b)
  {
    if a == [] {
      assert a + "." + b == "." + b;
      assert ("." + b)[1..] == b;
    } else if a[0] == '.' {
      assert (a + "." + b)[1..] == a[1..] + "." + b;
      SplitDot(a[1..], b);
    } else {
      assert (a + "." + b)[1..] == a[1..] + "." + b;
      SplitDot(a[1..], b);
    }
  }

  /** A dot-free string is a single segment. */
  lemma {:induction false} SplitDotFree(a: string)
    requires DotFree(a)
    ensures Split(a) == [a]
  {
    if a != [] {
      SplitDotFree(a[1..]);
      assert a == [a[0]] + a[1..];
    }
  }

  /** Splitting is the inverse of joining on non-empty paths of dot-free segments. */
  lemma {:induction false} SplitJoin(p: Path)
    requires |p| >= 1 && DotFreeSegments(p)
    ensures Split(Join(p)) == p
  {
    if |p| == 1 {
      SplitDotFree(p[0]);
    } else {
      SplitJoin(p[1..]);
      SplitDot(p[0], Join(p[1..]));
      SplitDotFree(p[0]);
      assert p == [p[0]] + p[1..];
    }
  }

  /** Two paths that differ at some common position: writing at one cannot
      touch what is read at the other. */
  predicate Diverge(p: Path, q: Path) {
    exists i :: 0 <= i < |p| && i < |q| && p[i] != q[i]
  }

  // ---------------------------------------------------------------------
  // Read and write by path
  // ---------------------------------------------------------------------

  /** `dot.pick`: reads the value at a path, `undefined` as soon as a
      segment is missing or an intermediate value is not an object. */
  function Pick(p: Path, v: Value): (r: Value)
    ensures p == [] ==> r == v
    ensures p != [] && r != Undef ==> v.Obj? && p[0] in v.fields
    ensures p != [] && !(v.Obj? && p[0] in v.fields) ==> r == Undef
  {
    if p == [] then v
    else if v.Obj? && p[0] in v.fields then Pick(p[1..], v.fields[p[0]])
    else Undef
  }

  /** Reading a concatenated path reads the second part inside what the
      first part finds. */
  lemma {:induction false} PickAppend(p: Path, q: Path, v: Value)
    ensures Pick(p + q, v) == Pick(q, Pick(p, v))
  {
    if p == [] {
      assert p + q == q;
    } else {
      assert (p + q)[0] == p[0] && (p + q)[1..] == p[1..] + q;
      if v.Obj? && p[0] in v.fields {
        PickAppend(p[1..], q, v.fields[p[0]]);
      }
    }
  }

  /** Plain assignment at a path (`data[name] = x` followed by inflation):
      missing or non-object intermediates are replaced by fresh objects and
      the last segment is overwritten. A root that is not an object is left
      as it is. */
  function Put(p: Path, x: Value, root: Value): (r: Value)
    ensures p != [] && root.Obj? ==> r.Obj? && r.fields.Keys == root.fields.Keys + {p[0]}
    ensures p != [] && !root.Obj? ==> r == root
  {
    if p == [] then x
    else if !root.Obj? then root
    else
      var k := p[0];
      var child := if k in root.fields && root.fields[k].Obj? then root.fields[k] else Empty;
      Obj(root.fields[k := Put(p[1..], x, child)])
  }

  /** `dot.set`: like `Put`, except that writing `undefined` changes nothing. */
  function SetAt(p: Path, x: Value, root: Value): (r: Value)
    ensures x.Undef? ==> r == root
    ensures !x.Undef? && (p == [] || root.Obj?) ==> Pick(p, r) == x
  {
    if x.Undef? then root
    else
      assert p == [] || root.Obj? ==> Pick(p, Put(p, x, root)) == x by {
        if p == [] || root.Obj? {
          PickPut(p, x, root);
        }
      }
      Put(p, x, root)
  }

  /** What was written at a path is read back there. */
  lemma {:induction false} PickPut(p: Path, x: Value, root: Value)
    requires p == [] || root.Obj?
    ensures Pick(p, Put(p, x, root)) == x
  {
    if p != [] {
      var k := p[0];
      var child := if k in root.fields && root.fields[k].Obj? then root.fields[k] else Empty;
      PickPut(p[1..], x, child);
    }
  }

  /** Writing at one path leaves every diverging path as it was. */
  lemma {:induction false} PickPutDiverge(p: Path, q: Path, x: Value, root: Value)
    requires Diverge(p, q)
    ensures Pick(q, Put(p, x, root)) == Pick(q, root)
  {
    if root.Obj? {
      var k := p[0];
      var child := if k in root.fields && root.fields[k].Obj? then root.fields[k] else Empty;
      if q[0] != k {
      } else {
        assert Diverge(p[1..], q[1..]) by {
          var i :| 0 <= i < |p| && i < |q| && p[i] != q[i];
          assert i > 0;
          assert p[1..][i - 1] != q[1..][i - 1];
        }
        PickPutDiverge(p[1..], q[1..], x, child);
        if k in root.fields && !root.fields[k].Obj? {
          // a scalar at `k` is replaced by a fresh object: both sides read `undefined`
          PickNonObject(q[1..], root.fields[k]);
          PickEmpty(q[1..]);
        } else if k !in root.fields {
          PickEmpty(q[1..]);
        }
      }
    }
  }

  /** Nothing but the value itself is found below a non-object. */
  lemma PickNonObject(q: Path, v: Value)
    requires !v.Obj? && q != []
    ensures Pick(q, v) == Undef
  {
  }

  /** Nothing is found below the empty object. */
  lemma PickEmpty(q: Path)
    requires q != []
    ensures Pick(q, Empty) == Undef
  {
  }

  // ---------------------------------------------------------------------
  // Flatten: nested object -> dotted keys (`dot.dot`)
  // ---------------------------------------------------------------------

  /** Every key of a value's objects, at every depth, is a single segment. */
  predicate WellFormed(v: Value) {
    v.Obj? ==> forall k | k in v.fields :: DotFree(k) && WellFormed(v.fields[k])
  }

  /** The dotted keys `dot.dot` produces: one per leaf, where a leaf is any
      property whose value is not a non-empty object. */
  function LeafKeys(v: Value): set<string>
  {
    if v.Obj? then
      (set k | k in v.fields && !IsBranch(v.fields[k])) +
      (set k, t | k in v.fields && IsBranch(v.fields[k]) && t in LeafKeys(v.fields[k]) :: k + "." + t)
    else {}
  }

  /** The leaf positions of a value, as paths of property names. */
  function LeafPaths(v: Value): set<Path>
  {
    if v.Obj? then
      (set k | k in v.fields && !IsBranch(v.fields[k]) :: [k]) +
      (set k, q | k in v.fields && IsBranch(v.fields[k]) && q in LeafPaths(v.fields[k]) :: [k] + q)
    else {}
  }

  /** The value stored under the flat key `s`: a property literally named
      `s` holding a leaf, else the first dotted prefix of `s` naming a
      non-empty object, searched from the left. */
  function FlatAt(v: Value, s: string): (r: Value)
    ensures !IsBranch(r)
    decreases v, |s| + 1
  {
    if v.Obj? && s in v.fields && !IsBranch(v.fields[s]) then v.fields[s]
    else FlatAtFrom(v, s, 0)
  }

  /** The search of `FlatAt` over the dots of `s` at index `i` or later. */
  function FlatAtFrom(v: Value, s: string, i: nat): (r: Value)
    ensures !IsBranch(r)
    decreases v, |s| - i
  {
    if i >= |s| || !v.Obj? then Undef
    else if s[i] == '.' && s[..i] in v.fields && IsBranch(v.fields[s[..i]]) then
      FlatAt(v.fields[s[..i]], s[i + 1..])
    else FlatAtFrom(v, s, i + 1)
  }

  /** `dot.dot`: the flat mapping from dotted key to leaf value. A value
      that is not an object flattens to nothing. */
  function Flatten(v: Value): (m: map<string, Value>)
    ensures m.Keys == LeafKeys(v)
    ensures forall s | s in m :: !IsBranch(m[s])
  {
    map s | s in LeafKeys(v) :: FlatAt(v, s)
  }

  /** An object whose properties are all leaves is already flat: its
      flattening is its own property map, dotted keys included. */
  lemma FlattenFlat(m: map<string, Value>)
    requires forall k | k in m :: !IsBranch(m[k])
    ensures Flatten(Obj(m)) == m
  {
    var v := Obj(m);
    assert LeafKeys(v) == m.Keys;
    forall s | s in m
      ensures Flatten(v)[s] == m[s]
    {
    }
  }

  /** Every leaf path shows up, joined with dots, as a key of the
      flattening, carrying the value found at that path. */
  lemma {:induction false} FlattenPick(v: Value, p: Path)
    requires WellFormed(v)
    requires p in LeafPaths(v)
    ensures Join(p) in Flatten(v)
    ensures Flatten(v)[Join(p)] == Pick(p, v)
  {
    var k := p[0];
    var q := p[1..];
    assert p == [k] + q;
    if q == [] {
      assert !IsBranch(v.fields[k]);
      assert Join(p) == k;
    } else {
      assert p !in (set k | k in v.fields && !IsBranch(v.fields[k]) :: [k]);
      var k', q' :| k' in v.fields && IsBranch(v.fields[k']) && q' in LeafPaths(v.fields[k']) && p == [k'] + q';
      assert k' == k && q' == q by {
        assert p[0] == k';
        assert p[1..] == q';
      }
      var child := v.fields[k];
      FlattenPick(child, q);
      assert Join(p) == k + "." + Join(q);
      assert Join(p) in LeafKeys(v);
      assert Join(p) !in v.fields by {
        assert Join(p)[|k|] == '.';
        assert !DotFree(Join(p));
      }
      FlatAtFromPrefix(v, k, Join(q), 0);
    }
  }

  /** The search of `FlatAt` skips the dot-free first segment and descends
      at the dot that ends it. */
  lemma {:induction false} FlatAtFromPrefix(v: Value, k: string, t: string, i: nat)
    requires WellFormed(v) && v.Obj? && k in v.fields && IsBranch(v.fields[k])
    requires i <= |k|
    ensures FlatAtFrom(v, k + "." + t, i) == FlatAt(v.fields[k], t)
    decreases |k| - i
  {
    var s := k + "." + t;
    assert DotFree(k);
    if i == |k| {
      assert s[..i] == k;
      assert s[i + 1..] == t;
    } else {
      assert s[i] == k[i] != '.';
      FlatAtFromPrefix(v, k, t, i + 1);
    }
  }

  /** Every key of the flattening comes from a leaf path. */
  lemma {:induction false} LeafKeysFromPaths(v: Value, s: string)
    requires s in LeafKeys(v)
    ensures exists p :: p in LeafPaths(v) && Join(p) == s
  {
    if s in (set k | k in v.fields && !IsBranch(v.fields[k])) {
      assert [s] in LeafPaths(v);
      assert Join([s]) == s;
    } else {
      var k, t :| k in v.fields && IsBranch(v.fields[k]) && t in LeafKeys(v.fields[k]) && s == k + "." + t;
      LeafKeysFromPaths(v.fields[k], t);
      var q :| q in LeafPaths(v.fields[k]) && Join(q) == t;
      LeafPathsNonEmpty(v.fields[k], q);
      assert [k] + q in LeafPaths(v);
      assert ([k] + q)[1..] == q;
      assert Join([k] + q) == s;
    }
  }

  /** Leaf paths name at least one property. */
  lemma LeafPathsNonEmpty(v: Value, p: Path)
    requires p in LeafPaths(v)
    ensures |p| >= 1
  {
  }

  // ---------------------------------------------------------------------
  // Inflate: dotted keys -> nested object (`dot.object`)
  // ---------------------------------------------------------------------

  /** `dot.object` applied to an object whose existing nested part is
      `base` and whose dotted keys were assigned in the order of `entries`:
      each entry is written at the path its key spells, later entries last. */
  function Inflate(base: Value, entries: seq<(string, Value)>): (r: Value)
    ensures base.Obj? ==> r.Obj?
    ensures !base.Obj? ==> r == base
  {
    if entries == [] then base
    else
      var last := entries[|entries| - 1];
      Put(Split(last.0), last.1, Inflate(base, entries[..|entries| - 1]))
  }

  /** The value an entry assigns is read back at its path after inflation,
      provided every later entry's path diverges from it. */
  lemma {:induction false} InflatePick(base: Value, entries: seq<(string, Value)>, j: nat)
    requires base.Obj?
    requires j < |entries|
    requires forall i | j < i < |entries| :: Diverge(Split(entries[i].0), Split(entries[j].0))
    ensures Pick(Split(entries[j].0), Inflate(base, entries)) == entries[j].1
  {
    var n := |entries|;
    var prefix := entries[..n - 1];
    if j == n - 1 {
      PickPut(Split(entries[j].0), entries[j].1, Inflate(base, prefix));
    } else {
      assert entries[j] == prefix[j];
      InflatePick(base, prefix, j);
      PickPutDiverge(Split(entries[n - 1].0), Split(entries[j].0), entries[n - 1].1, Inflate(base, prefix));
    }
  }

  /** A path every entry diverges from keeps the base's value. */
  lemma {:induction false} InflateUntouched(base: Value, entries: seq<(string, Value)>, q: Path)
    requires forall i | 0 <= i < |entries| :: Diverge(Split(entries[i].0), q)
    ensures Pick(q, Inflate(base, entries)) == Pick(q, base)
  {
    if entries != [] {
      var n := |entries|;
      var prefix := entries[..n - 1];
      assert forall i | 0 <= i < |prefix| :: prefix[i] == entries[i];
      InflateUntouched(base, prefix, q);
      PickPutDiverge(Split(entries[n - 1].0), q, entries[n - 1].1, Inflate(base, prefix));
    }
  }
}

=== FILE: path_laws.dfy ===
/**
 The laws tying `Flatten` (`dot.dot`) and `Inflate` (`dot.object`)
 together. The first law: inflating a listing of an object's flattening
 rebuilds the object. The second: flattening what is inflated from leaves
 at pairwise diverging names lists those leaves again.

 The proofs work on paths rather than dotted keys. `PutAll` writes a
 sequence of (path, value) assignments, and `Inflate` is `PutAll` over the
 split keys (`InflateAsPutAll`).
 */
module PathLaws {
  import opened PathCodec

  /** A value assigned at a path. */
  type Assignment = (Path, Value)

  /** Writes the assignments one after the other with `Put`, the last one
      last. */
  function PutAll(base: Value, xs: seq<Assignment>): (r: Value)
    ensures base.Obj? && (forall a | a in xs :: a.0 != []) ==> r.Obj?
  {
    if xs == [] then base
    else
      var n := |xs| - 1;
      assert forall a | a in xs[..n] :: a in xs;
      Put(xs[n].0, xs[n].1, PutAll(base, xs[..n]))
  }

  /** The assignments a sequence of dotted keys spells. */
  function ToPaths(es: seq<(string, Value)>): (xs: seq<Assignment>)
    ensures |xs| == |es|
    ensures forall i | 0 <= i < |es| :: xs[i] == (Split(es[i].0), es[i].1)
  {
    seq(|es|, i requires 0 <= i < |es| => (Split(es[i].0), es[i].1))
  }

  /** Inflating dotted keys is writing at the paths they spell. */
  lemma {:induction false} InflateAsPutAll(base: Value, es: seq<(string, Value)>)
    ensures Inflate(base, es) == PutAll(base, ToPaths(es))
  {
    if es != [] {
      var n := |es| - 1;
      assert ToPaths(es)[..n] == ToPaths(es[..n]);
      InflateAsPutAll(base, es[..n]);
    }
  }

  /** The assignments spelled by dotted keys are those keys' paths, each
      with its key's value. */
  lemma ToPathsMember(es: seq<(string, Value)>)
    ensures forall e | e in es :: (Split(e.0), e.1) in ToPaths(es)
    ensures forall a | a in ToPaths(es) :: exists e :: e in es && a == (Split(e.0), e.1)
  {
    var xs := ToPaths(es);
    forall e | e in es
      ensures (Split(e.0), e.1) in xs
    {
      var i :| 0 <= i < |es| && es[i] == e;
      assert xs[i] == (Split(e.0), e.1);
    }
    forall a | a in xs
      ensures exists e :: e in es && a == (Split(e.0), e.1)
    {
      var i :| 0 <= i < |xs| && xs[i] == a;
      assert es[i] in es;
    }
  }

  // ---------------------------------------------------------------------
  // Leaf paths, one level at a time
  // ---------------------------------------------------------------------

  /** A leaf path of an object is a property holding a leaf, or a property
      holding a non-empty object followed by a leaf path of that object. */
  lemma LeafPathsOf(v: Value, p: Path)
    requires v.Obj?
    ensures p in LeafPaths(v) <==>
      && |p| >= 1 && p[0] in v.fields
      && if IsBranch(v.fields[p[0]]) then |p| >= 2 && p[1..] in LeafPaths(v.fields[p[0]])
         else |p| == 1
  {
    if |p| >= 1 && p[0] in v.fields {
      var k, q := p[0], p[1..];
      assert p == [k] + q;
      if IsBranch(v.fields[k]) {
        if q in LeafPaths(v.fields[k]) {
          LeafPathsNonEmpty(v.fields[k], q);
        }
        if p in LeafPaths(v) {
          assert p !in (set k | k in v.fields && !IsBranch(v.fields[k]) :: [k]);
          var k', q' :| k' in v.fields && IsBranch(v.fields[k']) && q' in LeafPaths(v.fields[k']) && p == [k'] + q';
          assert k' == p[0] && q' == p[1..];
          LeafPathsNonEmpty(v.fields[k'], q');
        }
      } else if |p| == 1 {
        assert p == [k];
      } else {
        assert p !in (set k | k in v.fields && !IsBranch(v.fields[k]) :: [k]);
      }
    }
  }

  /** A non-empty object has a leaf path. */
  lemma {:induction false} BranchHasLeaf(v: Value) returns (q: Path)
    requires IsBranch(v)
    ensures q in LeafPaths(v)
    decreases v
  {
    var k :| k in v.fields;
    if IsBranch(v.fields[k]) {
      var q' := BranchHasLeaf(v.fields[k]);
      q := [k] + q';
      assert q[0] == k && q[1..] == q';
      LeafPathsNonEmpty(v.fields[k], q');
      LeafPathsOf(v, q);
    } else {
      q := [k];
      LeafPathsOf(v, q);
    }
  }

  /** In a well-formed value every leaf path is made of dot-free names. */
  lemma {:induction false} LeafPathsDotFree(v: Value, p: Path)
    requires WellFormed(v) && p in LeafPaths(v)
    ensures |p| >= 1 && DotFreeSegments(p)
    decreases v
  {
    LeafPathsOf(v, p);
    var k := p[0];
    assert DotFree(k);
    if IsBranch(v.fields[k]) {
      LeafPathsDotFree(v.fields[k], p[1..]);
      forall i | 0 <= i < |p|
        ensures DotFree(p[i])
      {
        if i > 0 {
          assert p[i] == p[1..][i - 1];
        }
      }
    }
  }

  /** Reading below a property is reading inside that property's value. */
  lemma PickCons(k: string, q: Path, v: Value)
    requires v.Obj? && k in v.fields
    ensures Pick([k] + q, v) == Pick(q, v.fields[k])
  {
    assert ([k] + q)[0] == k && ([k] + q)[1..] == q;
  }

  // ---------------------------------------------------------------------
  // What a sequence of writes leaves at one property
  // ---------------------------------------------------------------------

  /** The object `Put` descends into at property `k`: the property's value
      if that is an object, else a fresh `{}`. */
  function Child(v: Value, k: string): (c: Value)
    ensures c.Obj?
    ensures v.Obj? && k in v.fields && v.fields[k].Obj? ==> c == v.fields[k]
  {
    if v.Obj? && k in v.fields && v.fields[k].Obj? then v.fields[k] else Empty
  }

  /** The assignments that reach below property `k`: those whose path
      starts with `k` and goes on, with `k` taken off, in their order. */
  function Below(xs: seq<Assignment>, k: string): seq<Assignment>
  {
    if xs == [] then []
    else
      var n := |xs| - 1;
      var a := xs[n];
      if |a.0| >= 2 && a.0[0] == k then Below(xs[..n], k) + [(a.0[1..], a.1)]
      else Below(xs[..n], k)
  }

  /** Everything `Below` keeps is an assignment past `k`, with `k` taken off. */
  lemma {:induction false} BelowSound(xs: seq<Assignment>, k: string)
    ensures forall b | b in Below(xs, k) :: b.0 != [] && ([k] + b.0, b.1) in xs
  {
    if xs != [] {
      var n := |xs| - 1;
      var a := xs[n];
      var xs' := xs[..n];
      BelowSound(xs', k);
      forall b | b in Below(xs, k)
        ensures b.0 != [] && ([k] + b.0, b.1) in xs
      {
        if b in Below(xs', k) {
          var i :| 0 <= i < |xs'| && xs'[i] == ([k] + b.0, b.1);
          assert xs[i] == xs'[i];
        } else {
          assert |a.0| >= 2 && a.0[0] == k;
          assert b == (a.0[1..], a.1);
          assert [k] + b.0 == a.0;
        }
      }
    }
  }

  /** Every assignment past `k` is kept by `Below`, with `k` taken off. */
  lemma {:induction false} BelowComplete(xs: seq<Assignment>, k: string)
    ensures forall a | a in xs && |a.0| >= 2 && a.0[0] == k :: (a.0[1..], a.1) in Below(xs, k)
  {
    if xs != [] {
      var n := |xs| - 1;
      var xs' := xs[..n];
      BelowComplete(xs', k);
      forall a | a in xs && |a.0| >= 2 && a.0[0] == k
        ensures (a.0[1..], a.1) in Below(xs, k)
      {
        var i :| 0 <= i < |xs| && xs[i] == a;
        if i < n {
          assert xs'[i] == a;
        }
      }
    }
  }

  /** `Below` keeps exactly the assignments that go on past `k`. */
  lemma BelowMember(xs: seq<Assignment>, k: string)
    ensures forall b | b in Below(xs, k) :: b.0 != [] && ([k] + b.0, b.1) in xs
    ensures forall a | a in xs && |a.0| >= 2 && a.0[0] == k :: (a.0[1..], a.1) in Below(xs, k)
  {
    BelowSound(xs, k);
    BelowComplete(xs, k);
  }

  /** Writes whose paths all start elsewhere leave property `k` as it was. */
  lemma {:induction false} PutAllAbsent(base: Value, xs: seq<Assignment>, k: string)
    requires base.Obj?
    requires forall a | a in xs :: a.0 != [] && a.0[0] != k
    ensures k in PutAll(base, xs).fields <==> k in base.fields
    ensures k in base.fields ==> PutAll(base, xs).fields[k] == base.fields[k]
  {
    if xs != [] {
      var n := |xs| - 1;
      assert forall a | a in xs[..n] :: a in xs;
      PutAllAbsent(base, xs[..n], k);
    }
  }

  /** When every write that starts with `k` puts `w` at `[k]` itself, and
      there is one, property `k` ends up holding `w`. */
  lemma {:induction false} PutAllSingle(base: Value, xs: seq<Assignment>, k: string, w: Value)
    requires base.Obj?
    requires forall a | a in xs :: a.0 != []
    requires forall a | a in xs && a.0[0] == k :: a == ([k], w)
    requires ([k], w) in xs
    ensures k in PutAll(base, xs).fields && PutAll(base, xs).fields[k] == w
  {
    var n := |xs| - 1;
    var xs' := xs[..n];
    assert forall a | a in xs' :: a in xs;
    var r' := PutAll(base, xs');
    if xs[n].0[0] == k {
      assert xs[n] == ([k], w);
      assert PutAll(base, xs) == Put([k], w, r');
      assert [k][1..] == [];
      assert Put([k], w, r').fields[k] == Put([], w, Child(r', k));
    } else {
      var i :| 0 <= i < |xs| && xs[i] == ([k], w);
      assert i < n && xs'[i] == ([k], w);
      PutAllSingle(base, xs', k, w);
    }
  }

  /** One write into an object: the first property on its path becomes the
      write applied to what `Put` descends into there; every other
      property stays as it was. */
  lemma PutHead(p: Path, v: Value, y: Value)
    requires y.Obj? && p != []
    ensures p[0] in Put(p, v, y).fields
    ensures Put(p, v, y).fields[p[0]] == Put(p[1..], v, Child(y, p[0]))
    ensures forall k | k != p[0] && k in y.fields :: Put(p, v, y).fields[k] == y.fields[k]
  {
  }

  /** What `Put` finds below property `k` after a sequence of writes is
      the writes that reach below `k` applied to what it found there
      before; when some write reaches below `k`, `k` holds that object. */
  lemma {:induction false} PutAllBelow(base: Value, xs: seq<Assignment>, k: string)
    requires base.Obj?
    requires forall a | a in xs :: a.0 != [] && a.0 != [k]
    ensures Child(PutAll(base, xs), k) == PutAll(Child(base, k), Below(xs, k))
    ensures Below(xs, k) != [] ==>
      k in PutAll(base, xs).fields && PutAll(base, xs).fields[k] == PutAll(Child(base, k), Below(xs, k))
  {
    if xs != [] {
      var n := |xs| - 1;
      var a := xs[n];
      var xs' := xs[..n];
      assert forall a' | a' in xs' :: a' in xs;
      PutAllBelow(base, xs', k);
      var r' := PutAll(base, xs');
      var c' := PutAll(Child(base, k), Below(xs', k));
      assert PutAll(base, xs) == Put(a.0, a.1, r');
      PutHead(a.0, a.1, r');
      if a.0[0] == k {
        var b := (a.0[1..], a.1);
        var bs := Below(xs', k) + [b];
        assert Below(xs, k) == bs;
        assert bs[..|bs| - 1] == Below(xs', k);
        BelowSound(xs', k);
        assert PutAll(Child(base, k), Below(xs, k)) == Put(b.0, b.1, c');
      } else {
        assert Below(xs, k) == Below(xs', k);
      }
    }
  }

  // ---------------------------------------------------------------------
  // Inflate after Flatten
  // ---------------------------------------------------------------------

  /** `xs` lists the leaves of `x`: every assignment puts, at a leaf path of
      `x`, the value found there, and every leaf path is assigned, in any
      order and possibly more than once. */
  predicate ListsLeaves(xs: seq<Assignment>, x: Value) {
    && (forall a | a in xs :: a.0 in LeafPaths(x) && a.1 == Pick(a.0, x))
    && (forall p | p in LeafPaths(x) :: (p, Pick(p, x)) in xs)
  }

  /** Property `k` of an object holds a leaf: listing the object's leaves
      and writing them into `{}` puts that leaf at `k`. */
  lemma RebuildLeafKey(x: Value, xs: seq<Assignment>, k: string)
    requires x.Obj? && ListsLeaves(xs, x)
    requires k in x.fields && !IsBranch(x.fields[k])
    requires forall a | a in xs :: a.0 != []
    ensures k in PutAll(Empty, xs).fields && PutAll(Empty, xs).fields[k] == x.fields[k]
  {
    var c := x.fields[k];
    LeafPathsOf(x, [k]);
    assert Pick([k], x) == c;
    forall a | a in xs && a.0[0] == k
      ensures a == ([k], c)
    {
      LeafPathsOf(x, a.0);
      assert a.0 == [k];
    }
    PutAllSingle(Empty, xs, k, c);
  }

  /** Property `k` of an object holds a non-empty object: what the listing
      writes at `k` is the writing of a listing of that inner object. */
  lemma RebuildBranchKey(x: Value, xs: seq<Assignment>, k: string)
    requires x.Obj? && ListsLeaves(xs, x)
    requires k in x.fields && IsBranch(x.fields[k])
    requires forall a | a in xs :: a.0 != []
    ensures k in PutAll(Empty, xs).fields
    ensures PutAll(Empty, xs).fields[k] == PutAll(Empty, Below(xs, k))
    ensures ListsLeaves(Below(xs, k), x.fields[k])
  {
    var c := x.fields[k];
    forall a | a in xs
      ensures a.0 != [] && a.0 != [k]
    {
      LeafPathsOf(x, a.0);
    }
    var q := BranchHasLeaf(c);
    LeafPathsOf(x, [k] + q);
    assert ([k] + q)[0] == k && ([k] + q)[1..] == q;
    assert ([k] + q, Pick([k] + q, x)) in xs;
    BelowMember(xs, k);
    assert (q, Pick([k] + q, x)) in Below(xs, k);
    PutAllBelow(Empty, xs, k);
    forall b | b in Below(xs, k)
      ensures b.0 in LeafPaths(c) && b.1 == Pick(b.0, c)
    {
      LeafPathsOf(x, [k] + b.0);
      assert ([k] + b.0)[0] == k && ([k] + b.0)[1..] == b.0;
      PickCons(k, b.0, x);
    }
    forall p | p in LeafPaths(c)
      ensures (p, Pick(p, c)) in Below(xs, k)
    {
      LeafPathsNonEmpty(c, p);
      LeafPathsOf(x, [k] + p);
      assert ([k] + p)[0] == k && ([k] + p)[1..] == p;
      PickCons(k, p, x);
      assert ([k] + p, Pick([k] + p, x)) in xs;
    }
  }

  /** Writing the leaves of an object into `{}`, in any order, rebuilds
      the object. */
  lemma {:induction false} RebuildLeaves(x: Value, xs: seq<Assignment>)
    requires x.Obj? && ListsLeaves(xs, x)
    ensures PutAll(Empty, xs) == x
    decreases x
  {
    forall a | a in xs
      ensures a.0 != []
    {
      LeafPathsNonEmpty(x, a.0);
    }
    var r := PutAll(Empty, xs);
    forall k | k in x.fields
      ensures k in r.fields && r.fields[k] == x.fields[k]
    {
      if IsBranch(x.fields[k]) {
        RebuildBranchKey(x, xs, k);
        RebuildLeaves(x.fields[k], Below(xs, k));
      } else {
        RebuildLeafKey(x, xs, k);
      }
    }
    forall k | k !in x.fields
      ensures k !in r.fields
    {
      forall a | a in xs
        ensures a.0 != [] && a.0[0] != k
      {
        LeafPathsOf(x, a.0);
      }
      PutAllAbsent(Empty, xs, k);
    }
    assert r.fields == x.fields;
  }

  /** `dot.object(dot.dot(x))` gives `x` back: inflating into `{}` any
      listing of the flattening of a well-formed object, in any order,
      rebuilds the object. */
  lemma InflateFlatten(x: Value, es: seq<(string, Value)>)
    requires x.Obj? && WellFormed(x)
    requires ListsEntries(es, Flatten(x))
    ensures Inflate(Empty, es) == x
  {
    var xs := ToPaths(es);
    var m := Flatten(x);
    InflateAsPutAll(Empty, es);
    ToPathsMember(es);
    forall a | a in xs
      ensures a.0 in LeafPaths(x) && a.1 == Pick(a.0, x)
    {
      var e :| e in es && a == (Split(e.0), e.1);
      LeafKeysFromPaths(x, e.0);
      var p :| p in LeafPaths(x) && Join(p) == e.0;
      LeafPathsDotFree(x, p);
      SplitJoin(p);
      FlattenPick(x, p);
    }
    forall p | p in LeafPaths(x)
      ensures (p, Pick(p, x)) in xs
    {
      FlattenPick(x, p);
      LeafPathsDotFree(x, p);
      SplitJoin(p);
      assert (Join(p), m[Join(p)]) in es;
    }
    RebuildLeaves(x, xs);
  }

  // ---------------------------------------------------------------------
  // Flatten after Inflate
  // ---------------------------------------------------------------------

  /** `es` lists the entries of the flat map `m`, in any order and
      possibly more than once. */
  predicate ListsEntries(es: seq<(string, Value)>, m: map<string, Value>) {
    && (forall e | e in es :: e.0 in m && m[e.0] == e.1)
    && (forall s | s in m :: (s, m[s]) in es)
  }

  /** Writing dot-free names keeps a value well formed. */
  lemma {:induction false} PutWellFormed(p: Path, v: Value, y: Value)
    requires DotFreeSegments(p) && WellFormed(v) && WellFormed(y)
    ensures WellFormed(Put(p, v, y))
    decreases |p|
  {
    if p != [] && y.Obj? {
      var k := p[0];
      assert DotFreeSegments(p[1..]) by {
        forall i | 0 <= i < |p| - 1
          ensures DotFree(p[1..][i])
        {
          assert p[1..][i] == p[i + 1];
        }
      }
      PutWellFormed(p[1..], v, Child(y, k));
      assert DotFree(k);
    }
  }

  /** Writing well-formed values at dot-free paths keeps a value well formed. */
  lemma {:induction false} PutAllWellFormed(base: Value, xs: seq<Assignment>)
    requires WellFormed(base)
    requires forall a | a in xs :: DotFreeSegments(a.0) && WellFormed(a.1)
    ensures WellFormed(PutAll(base, xs))
  {
    if xs != [] {
      var n := |xs| - 1;
      assert forall a | a in xs[..n] :: a in xs;
      PutAllWellFormed(base, xs[..n]);
      PutWellFormed(xs[n].0, xs[n].1, PutAll(base, xs[..n]));
    }
  }

  /** The empty object has no leaves. */
  lemma EmptyHasNoLeaves()
    ensures LeafPaths(Empty) == {}
  {
  }

  /** Setting an absent property `k` to a leaf adds the path `[k]`. */
  lemma LeafPathsAddLeaf(y: Value, k: string, v: Value)
    requires y.Obj? && k !in y.fields && !IsBranch(v)
    ensures LeafPaths(Obj(y.fields[k := v])) == LeafPaths(y) + {[k]}
  {
    var y2 := Obj(y.fields[k := v]);
    forall q
      ensures q in LeafPaths(y2) <==> q in LeafPaths(y) || q == [k]
    {
      LeafPathsOf(y2, q);
      LeafPathsOf(y, q);
      if |q| == 1 && q[0] == k {
        assert q == [k];
      }
    }
  }

  /** Setting property `k` to a non-empty object whose leaf paths are
      those of the old value (none if absent) plus `t` adds `[k] + t`. */
  lemma LeafPathsGrowBranch(y: Value, k: string, c2: Value, t: Path)
    requires y.Obj? && IsBranch(c2)
    requires k in y.fields ==> IsBranch(y.fields[k]) && LeafPaths(c2) == LeafPaths(y.fields[k]) + {t}
    requires k !in y.fields ==> LeafPaths(c2) == {t}
    ensures LeafPaths(Obj(y.fields[k := c2])) == LeafPaths(y) + {[k] + t}
  {
    var y2 := Obj(y.fields[k := c2]);
    forall q
      ensures q in LeafPaths(y2) <==> q in LeafPaths(y) || q == [k] + t
    {
      if q != [] && q[0] == k {
        LeafPathsUnderKey(y2, y, k, q[1..]);
        assert q == [k] + q[1..];
      } else if q != [] && q[0] in y.fields {
        assert y2.fields[q[0]] == y.fields[q[0]];
        LeafPathsOf(y2, q);
        LeafPathsOf(y, q);
      } else {
        LeafPathsOf(y2, q);
        LeafPathsOf(y, q);
      }
    }
  }

  /** The leaf paths through property `k` of `y2`, which holds a non-empty
      object there, for the `LeafPathsGrowBranch` step. */
  lemma LeafPathsUnderKey(y2: Value, y: Value, k: string, u: Path)
    requires y2.Obj? && y.Obj? && k in y2.fields && IsBranch(y2.fields[k])
    requires k in y.fields ==> IsBranch(y.fields[k])
    ensures [k] + u in LeafPaths(y2) <==> u in LeafPaths(y2.fields[k])
    ensures [k] + u in LeafPaths(y) <==> k in y.fields && u in LeafPaths(y.fields[k])
  {
    assert ([k] + u)[0] == k && ([k] + u)[1..] == u;
    LeafPathsOf(y2, [k] + u);
    LeafPathsOf(y, [k] + u);
    if u in LeafPaths(y2.fields[k]) {
      LeafPathsNonEmpty(y2.fields[k], u);
    }
    if k in y.fields && u in LeafPaths(y.fields[k]) {
      LeafPathsNonEmpty(y.fields[k], u);
    }
  }

  /** A path that diverges from every leaf path of an object and starts
      with one of its properties goes on below a non-empty object there. */
  lemma DivergeIntoBranch(p: Path, y: Value)
    requires y.Obj? && p != [] && p[0] in y.fields
    requires forall q | q in LeafPaths(y) :: Diverge(p, q)
    ensures IsBranch(y.fields[p[0]]) && |p| >= 2
    ensures forall q | q in LeafPaths(y.fields[p[0]]) :: Diverge(p[1..], q)
  {
    var k := p[0];
    var child := y.fields[k];
    LeafPathsOf(y, [k]);
    if IsBranch(child) {
      var q := BranchHasLeaf(child);
      LeafPathsNonEmpty(child, q);
      LeafPathsOf(y, [k] + q);
      assert ([k] + q)[0] == k && ([k] + q)[1..] == q;
    }
    forall q | q in LeafPaths(child)
      ensures Diverge(p[1..], q)
    {
      LeafPathsNonEmpty(child, q);
      LeafPathsOf(y, [k] + q);
      assert ([k] + q)[0] == k && ([k] + q)[1..] == q;
      var i :| 0 <= i < |p| && i < |[k] + q| && p[i] != ([k] + q)[i];
      assert i > 0 && p[1..][i - 1] != q[i - 1];
    }
  }

  /** Putting a leaf at a path that diverges from every leaf path of an
      object adds exactly that path to the object's leaf paths. */
  lemma {:induction false} LeafPathsPut(p: Path, v: Value, y: Value)
    requires y.Obj? && p != [] && !IsBranch(v)
    requires forall q | q in LeafPaths(y) :: Diverge(p, q)
    ensures LeafPaths(Put(p, v, y)) == LeafPaths(y) + {p}
    decreases |p|
  {
    var k := p[0];
    var c2 := Put(p[1..], v, Child(y, k));
    assert Put(p, v, y) == Obj(y.fields[k := c2]);
    assert p == [k] + p[1..];
    if k in y.fields {
      DivergeIntoBranch(p, y);
      LeafPathsPut(p[1..], v, y.fields[k]);
      LeafPathsGrowBranch(y, k, c2, p[1..]);
    } else if |p| >= 2 {
      EmptyHasNoLeaves();
      LeafPathsPut(p[1..], v, Empty);
      LeafPathsGrowBranch(y, k, c2, p[1..]);
    } else {
      assert p[1..] == [] && p == [k];
      assert c2 == v;
      LeafPathsAddLeaf(y, k, v);
    }
  }

  /** One more leaf, at a path diverging from all earlier ones, is listed
      along with the earlier leaves. */
  lemma ListsLeavesPut(xs: seq<Assignment>, a: Assignment, y: Value)
    requires y.Obj? && a.0 != [] && !IsBranch(a.1)
    requires ListsLeaves(xs, y)
    requires forall b | b in xs :: Diverge(a.0, b.0)
    ensures ListsLeaves(xs + [a], Put(a.0, a.1, y))
  {
    var y2 := Put(a.0, a.1, y);
    forall q | q in LeafPaths(y)
      ensures Diverge(a.0, q)
    {
      assert (q, Pick(q, y)) in xs;
    }
    LeafPathsPut(a.0, a.1, y);
    PickPut(a.0, a.1, y);
    forall b | b in xs + [a]
      ensures b.0 in LeafPaths(y2) && b.1 == Pick(b.0, y2)
    {
      if b in xs {
        PickPutDiverge(a.0, b.0, a.1, y);
      }
    }
    forall q | q in LeafPaths(y2)
      ensures (q, Pick(q, y2)) in xs + [a]
    {
      if q != a.0 {
        assert (q, Pick(q, y)) in xs;
        PickPutDiverge(a.0, q, a.1, y);
      }
    }
  }

  /** The last of pairwise diverging paths diverges from each earlier one. */
  lemma LastDiverges(xs: seq<Assignment>)
    requires xs != []
    requires forall i, j | 0 <= i < j < |xs| :: Diverge(xs[i].0, xs[j].0)
    ensures forall b | b in xs[..|xs| - 1] :: Diverge(xs[|xs| - 1].0, b.0)
  {
    var n := |xs| - 1;
    forall b | b in xs[..n]
      ensures Diverge(xs[n].0, b.0)
    {
      var i :| 0 <= i < n && xs[..n][i] == b;
      assert xs[i] == b;
      var m :| 0 <= m < |b.0| && m < |xs[n].0| && b.0[m] != xs[n].0[m];
    }
  }

  /** Leaves written at pairwise diverging paths into `{}` are exactly the
      leaves of the result. */
  lemma {:induction false} PutAllListsLeaves(xs: seq<Assignment>)
    requires forall a | a in xs :: a.0 != [] && !IsBranch(a.1)
    requires forall i, j | 0 <= i < j < |xs| :: Diverge(xs[i].0, xs[j].0)
    ensures ListsLeaves(xs, PutAll(Empty, xs))
  {
    if xs == [] {
      EmptyHasNoLeaves();
    } else {
      var n := |xs| - 1;
      var xs' := xs[..n];
      var a := xs[n];
      assert xs == xs' + [a];
      forall b | b in xs'
        ensures b.0 != [] && !IsBranch(b.1)
      {
        assert b in xs;
      }
      forall i, j | 0 <= i < j < |xs'|
        ensures Diverge(xs'[i].0, xs'[j].0)
      {
        assert xs'[i] == xs[i] && xs'[j] == xs[j];
      }
      PutAllListsLeaves(xs');
      LastDiverges(xs);
      ListsLeavesPut(xs', a, PutAll(Empty, xs'));
    }
  }

  /** `dot.dot(dot.object(...))`: inflating leaf values under names whose
      paths pairwise diverge, then flattening, lists exactly those names
      with their values. */
  lemma FlattenInflate(es: seq<(string, Value)>)
    requires forall e | e in es :: !IsBranch(e.1)
    requires forall i, j | 0 <= i < j < |es| :: Diverge(Split(es[i].0), Split(es[j].0))
    ensures ListsEntries(es, Flatten(Inflate(Empty, es)))
  {
    var xs := ToPaths(es);
    InflateAsPutAll(Empty, es);
    ToPathsMember(es);
    forall a | a in xs
      ensures a.0 != [] && !IsBranch(a.1) && DotFreeSegments(a.0) && WellFormed(a.1)
    {
      var e :| e in es && a == (Split(e.0), e.1);
    }
    PutAllListsLeaves(xs);
    PutAllWellFormed(Empty, xs);
    var y := PutAll(Empty, xs);
    var m := Flatten(y);
    forall e | e in es
      ensures e.0 in m && m[e.0] == e.1
    {
      var p := Split(e.0);
      assert (p, e.1) in xs;
      FlattenPick(y, p);
      JoinSplit(e.0);
    }
    forall s | s in m
      ensures (s, m[s]) in es
    {
      LeafKeysFromPaths(y, s);
      var p :| p in LeafPaths(y) && Join(p) == s;
      assert (p, Pick(p, y)) in xs;
      var e :| e in es && (p, Pick(p, y)) == (Split(e.0), e.1);
      JoinSplit(e.0);
      FlattenPick(y, p);
    }
  }

  // ---------------------------------------------------------------------
  // Writing back what is already there
  // ---------------------------------------------------------------------

  /** `p` names an existing property of `y`: every step down is an object
      that has the next name. */
  predicate Present(p: Path, y: Value)
    decreases |p|
  {
    && p != [] && y.Obj? && p[0] in y.fields
    && (|p| == 1 || Present(p[1..], y.fields[p[0]]))
  }

  /** Every leaf path names an existing property. */
  lemma {:induction false} LeafPathPresent(p: Path, y: Value)
    requires y.Obj? && p in LeafPaths(y)
    ensures Present(p, y)
    decreases |p|
  {
    LeafPathsOf(y, p);
    if |p| >= 2 {
      LeafPathPresent(p[1..], y.fields[p[0]]);
    }
  }

  /** After a write into an object, the path written names an existing property. */
  lemma {:induction false} PutPresent(p: Path, v: Value, y: Value)
    requires y.Obj? && p != []
    ensures Present(p, Put(p, v, y))
    decreases |p|
  {
    if |p| >= 2 {
      PutPresent(p[1..], v, Child(y, p[0]));
    }
  }

  /** A write at a diverging path keeps an existing property in place. */
  lemma {:induction false} PutKeepsPresent(p: Path, v: Value, q: Path, y: Value)
    requires Diverge(p, q) && Present(q, y)
    ensures Present(q, Put(p, v, y))
    decreases |q|
  {
    if p[0] == q[0] {
      assert Diverge(p[1..], q[1..]) by {
        var i :| 0 <= i < |p| && i < |q| && p[i] != q[i];
        assert i > 0 && p[1..][i - 1] != q[1..][i - 1];
      }
      PutKeepsPresent(p[1..], v, q[1..], y.fields[q[0]]);
    }
  }

  /** Writing at an existing property the value already there changes nothing. */
  lemma {:induction false} PutPick(p: Path, y: Value)
    requires Present(p, y)
    ensures Put(p, Pick(p, y), y) == y
    decreases |p|
  {
    var k := p[0];
    var child := y.fields[k];
    assert Pick(p, y) == Pick(p[1..], child);
    if |p| >= 2 {
      PutPick(p[1..], child);
      assert Child(y, k) == child;
    } else {
      assert p[1..] == [];
    }
    assert y.fields[k := child] == y.fields;
  }

  /** Inflating into an object the values it already holds at existing
      properties gives the object back. */
  lemma {:induction false} InflateKeeps(x: Value, es: seq<(string, Value)>)
    requires x.Obj?
    requires forall e | e in es :: Present(Split(e.0), x) && e.1 == Pick(Split(e.0), x)
    ensures Inflate(x, es) == x
  {
    if es != [] {
      var n := |es| - 1;
      assert forall e | e in es[..n] :: e in es;
      InflateKeeps(x, es[..n]);
      assert es[n] in es;
      PutPick(Split(es[n].0), x);
    }
  }

  /** After inflation into an object, a name that every later name diverges
      from names an existing property. */
  lemma {:induction false} InflatePresent(base: Value, entries: seq<(string, Value)>, j: nat)
    requires base.Obj?
    requires j < |entries|
    requires forall i | j < i < |entries| :: Diverge(Split(entries[i].0), Split(entries[j].0))
    ensures Present(Split(entries[j].0), Inflate(base, entries))
  {
    var n := |entries| - 1;
    var prefix := entries[..n];
    if j == n {
      PutPresent(Split(entries[j].0), entries[j].1, Inflate(base, prefix));
    } else {
      assert entries[j] == prefix[j];
      InflatePresent(base, prefix, j);
      PutKeepsPresent(Split(entries[n].0), entries[n].1, Split(entries[j].0), Inflate(base, prefix));
    }
  }
}

=== FILE: registry.dfy ===
/**
 The field registry: the ordered list of field records a form keeps
 (`fields.current` in the form provider), with registration at the tail,
 head-first lookup by name and removal of the first record with a name.
 */
module Registry {
  import opened Wrappers
  import opened PathCodec

  /** What a custom `setValue` accessor leaves behind: the input's new state
      and the value the accessor returned. */
  datatype SetterResult = SetterResult(ref: Value, returned: Value)

  /** One registered input. `ref` is the state of the input the UI layer
      owns; `path` addresses the input's value inside `ref`. The optional
      accessors replace the default read, write and clear by path. */
  datatype Field = Field(
    name: string,
    ref: Value,
    path: Option<string>,
    getValue: Option<Value -> Value>,
    setValue: Option<(Value, Value) -> SetterResult>,
    clearValue: Option<(Value, Value) -> Value>)

  /** True if some record carries the name. */
  predicate Registered(fs: seq<Field>, n: string) {
    exists i :: 0 <= i < |fs| && fs[i].name == n
  }

  /** `findIndex` by name: the position of the earliest record carrying the
      name, `None` (JavaScript's -1) if there is none. */
  function FindIndex(fs: seq<Field>, n: string): (r: Option<nat>)
    ensures r.Some? ==> r.value < |fs| && fs[r.value].name == n
    ensures r.Some? ==> forall j | 0 <= j < r.value :: fs[j].name != n
    ensures r.None? <==> !Registered(fs, n)
  {
    if fs == [] then None
    else if fs[0].name == n then Some(0)
    else
      match FindIndex(fs[1..], n)
      case None => None
      case Some(i) => Some(i + 1)
  }

  /** `getFieldByName`: the earliest record carrying the name. */
  function FieldByName(fs: seq<Field>, n: string): (r: Option<Field>)
    ensures r.None? <==> !Registered(fs, n)
    ensures r.Some? ==> r.value.name == n && r.value in fs
    ensures r.Some? ==> r.value == fs[FindIndex(fs, n).value]
  {
    match FindIndex(fs, n)
    case None => None
    case Some(i) => Some(fs[i])
  }

  /** `registerField`: appends the record at the tail, without checking
      whether its name is already taken. */
  function Register(fs: seq<Field>, f: Field): (r: seq<Field>)
    ensures |r| == |fs| + 1 && r[|fs|] == f
    ensures forall i | 0 <= i < |fs| :: r[i] == fs[i]
  {
    fs + [f]
  }

  /** `unregisterField`: removes the earliest record carrying the name,
      keeping every other record in order; no record, no change. */
  function Unregister(fs: seq<Field>, n: string): (r: seq<Field>)
    ensures !Registered(fs, n) ==> r == fs
    ensures Registered(fs, n) ==> |r| == |fs| - 1
  {
    if fs == [] then []
    else if fs[0].name == n then fs[1..]
    else [fs[0]] + Unregister(fs[1..], n)
  }

  /** What unregistering removes: exactly the record the lookup finds,
      with the records before and after it kept in order. */
  lemma {:induction false} UnregisterFirst(fs: seq<Field>, n: string)
    requires Registered(fs, n)
    ensures var i := FindIndex(fs, n).value; Unregister(fs, n) == fs[..i] + fs[i + 1..]
  {
    if fs[0].name != n {
      var tail := fs[1..];
      assert Registered(tail, n) by {
        var k :| 0 <= k < |fs| && fs[k].name == n;
        assert k > 0 && tail[k - 1] == fs[k];
      }
      UnregisterFirst(tail, n);
      var j := FindIndex(tail, n).value;
      assert FindIndex(fs, n).value == j + 1;
      assert fs[..j + 1] == [fs[0]] + tail[..j];
      assert fs[j + 2..] == tail[j + 1..];
    }
  }

  /** Lookup after registration: a name already present still finds its
      earliest record; otherwise the new record is found exactly when it
      carries the name. */
  lemma {:induction false} FindIndexAfterRegister(fs: seq<Field>, f: Field, n: string)
    ensures FindIndex(Register(fs, f), n) ==
      if Registered(fs, n) then FindIndex(fs, n)
      else if f.name == n then Some(|fs|)
      else None
  {
    var r := Register(fs, f);
    if Registered(fs, n) {
      var i := FindIndex(fs, n).value;
      assert r[i] == fs[i];
      FindIndexIsFirst(r, n, i);
    } else if f.name == n {
      FindIndexIsFirst(r, n, |fs|);
    } else {
      assert !Registered(r, n) by {
        forall i | 0 <= i < |r|
          ensures r[i].name != n
        {
          if i < |fs| {
            assert r[i] == fs[i];
          }
        }
      }
    }
  }

  /** A position holding the name with no earlier holder is what the
      lookup returns. */
  lemma FindIndexIsFirst(fs: seq<Field>, n: string, i: nat)
    requires i < |fs| && fs[i].name == n
    requires forall j | 0 <= j < i :: fs[j].name != n
    ensures FindIndex(fs, n) == Some(i)
  {
  }

  /** Registering a record under a fresh name and unregistering that name
      gives the registry back. */
  lemma {:induction false} UnregisterRegister(fs: seq<Field>, f: Field)
    requires !Registered(fs, f.name)
    ensures Unregister(Register(fs, f), f.name) == fs
  {
    if fs == [] {
    } else {
      assert Register(fs, f)[1..] == Register(fs[1..], f);
      assert !Registered(fs[1..], f.name) by {
        forall i | 0 <= i < |fs| - 1
          ensures fs[1..][i].name != f.name
        {
          assert fs[1..][i] == fs[i + 1];
        }
      }
      UnregisterRegister(fs[1..], f);
    }
  }

  /** With the name already taken, unregistering it after a registration
      removes the earlier record and keeps the new one at the tail. */
  lemma {:induction false} UnregisterRegisterTaken(fs: seq<Field>, f: Field)
    requires Registered(fs, f.name)
    ensures Unregister(Register(fs, f), f.name) == Register(Unregister(fs, f.name), f)
  {
    var r := fs + [f];
    assert Register(fs, f) == r;
    assert r[0] == fs[0] && r[1..] == fs[1..] + [f];
    if fs[0].name == f.name {
      assert Unregister(r, f.name) == r[1..];
      assert Unregister(fs, f.name) == fs[1..];
    } else {
      assert Registered(fs[1..], f.name) by {
        var i :| 0 <= i < |fs| && fs[i].name == f.name;
        assert i > 0 && fs[1..][i - 1] == fs[i];
      }
      UnregisterRegisterTaken(fs[1..], f);
      assert Register(fs[1..], f) == fs[1..] + [f];
      assert Unregister(r, f.name) == [fs[0]] + Unregister(fs[1..] + [f], f.name);
      assert Unregister(fs, f.name) == [fs[0]] + Unregister(fs[1..], f.name);
    }
  }

  /** The names a registry holds. */
  function Names(fs: seq<Field>): (ns: set<string>)
    ensures forall n :: n in ns <==> Registered(fs, n)
  {
    set i | 0 <= i < |fs| :: fs[i].name
  }

  /** No two records share a name. */
  predicate UniqueNames(fs: seq<Field>) {
    forall i, j | 0 <= i < j < |fs| :: fs[i].name != fs[j].name
  }

  /** The names of a registry with a record in front. */
  lemma NamesCons(f: Field, fs: seq<Field>)
    ensures Names([f] + fs) == {f.name} + Names(fs)
  {
    var r := [f] + fs;
    forall m | m in Names(r)
      ensures m in {f.name} + Names(fs)
    {
      var i :| 0 <= i < |r| && r[i].name == m;
      if i > 0 {
        assert r[i] == fs[i - 1];
      }
    }
    forall m | m in Names(fs)
      ensures m in Names(r)
    {
      var i :| 0 <= i < |fs| && fs[i].name == m;
      assert r[i + 1] == fs[i];
    }
    assert r[0] == f;
    assert f.name in Names(r);
  }

  /** A registry with a record in front has unique names exactly when the
      rest does and does not hold the front record's name. */
  lemma UniqueCons(f: Field, fs: seq<Field>)
    ensures UniqueNames([f] + fs) <==> f.name !in Names(fs) && UniqueNames(fs)
  {
    var r := [f] + fs;
    assert r[0] == f;
    if UniqueNames(r) {
      forall i, j | 0 <= i < j < |fs|
        ensures fs[i].name != fs[j].name
      {
        assert fs[i] == r[i + 1] && fs[j] == r[j + 1];
      }
      forall i | 0 <= i < |fs|
        ensures fs[i].name != f.name
      {
        assert r[i + 1] == fs[i];
      }
    }
    if f.name !in Names(fs) && UniqueNames(fs) {
      forall i, j | 0 <= i < j < |r|
        ensures r[i].name != r[j].name
      {
        assert r[j] == fs[j - 1];
        if i > 0 {
          assert r[i] == fs[i - 1];
        } else {
          assert r[0] == f;
          assert fs[j - 1].name in Names(fs);
        }
      }
    }
  }

  /** On a registry without duplicates, unregistering a name removes just
      that name and keeps the names unique. */
  lemma {:induction false} UnregisterUnique(fs: seq<Field>, n: string)
    requires UniqueNames(fs)
    ensures UniqueNames(Unregister(fs, n))
    ensures Names(Unregister(fs, n)) == Names(fs) - {n}
  {
    if fs != [] {
      var tail := fs[1..];
      assert fs == [fs[0]] + tail;
      NamesCons(fs[0], tail);
      UniqueCons(fs[0], tail);
      if fs[0].name != n {
        UnregisterUnique(tail, n);
        NamesCons(fs[0], Unregister(tail, n));
        UniqueCons(fs[0], Unregister(tail, n));
      }
    }
  }
}

=== FILE: use_field.dfy ===
/**
 The per-field binding (`useField`): checks the name, qualifies it with
 the ambient scope, reads the field's default value and error from the
 form, and offers the error-clearing and unmount callbacks.
 */
module UseField {
  import opened Wrappers
  import opened PathCodec
  import opened Registry
  import opened FormProvider

  /** What the binding hands to the input component. */
  datatype Binding = Binding(fieldName: string, defaultValue: Value, error: Value)

  /** The message thrown for a field bound without a name. */
  const MissingName: string := "You need to provide the \"name\" prop."

  /** The field name under the ambient scope path: the name itself outside
      any scope, else the scope, a dot and the name. */
  function QualifiedName(scopePath: string, name: string): (r: string)
    ensures scopePath == "" ==> r == name
    ensures scopePath != "" ==> Split(r) == Split(scopePath) + Split(name)
  {
    if scopePath == "" then name
    else
      SplitDot(scopePath, name);
      scopePath + "." + name
  }

  /** `useField(name)` rendered inside a form `st` under `scopePath`: an
      empty name throws; otherwise the binding carries the qualified name,
      the live snapshot's value at it and the error-map entry under it. */
  function Bind(st: Form, scopePath: string, name: string): (r: Result<Binding, string>)
    ensures r.Err? <==> name == ""
    ensures r.Err? ==> r.error == MissingName
    ensures r.Ok? ==> r.value.fieldName == QualifiedName(scopePath, name)
    ensures r.Ok? ==> r.value.defaultValue == Pick(Split(r.value.fieldName), st.current)
    ensures r.Ok? ==> r.value.error == GetFieldError(st, r.value.fieldName)
  {
    if name == "" then Err(MissingName)
    else
      var fieldName := QualifiedName(scopePath, name);
      Ok(Binding(fieldName, Pick(Split(fieldName), st.current), GetFieldError(st, fieldName)))
  }

  /** The binding's `clearError()`: the error under the field's qualified
      name becomes `undefined`; every other entry stays. */
  function ClearError(st: Form, b: Binding): (r: Form)
    ensures GetFieldError(r, b.fieldName) == Undef && b.fieldName in r.errors
    ensures forall k | k != b.fieldName :: GetFieldError(r, k) == GetFieldError(st, k)
    ensures r.fields == st.fields && r.current == st.current
    ensures r.persistHiddenData == st.persistHiddenData
  {
    ClearFieldError(st, b.fieldName)
  }

  /** The binding's unmount effect: unregisters the qualified name. */
  function Unmount(st: Form, b: Binding): (r: Form)
    ensures r.fields == Unregister(st.fields, b.fieldName)
    ensures r.current == st.current && r.errors == st.errors
    ensures r.persistHiddenData == st.persistHiddenData
  {
    UnregisterField(st, b.fieldName)
  }

  /** Inside a scope, the default value is the field's own name read inside
      the scope's part of the snapshot, and the error is the one under the
      dotted name. */
  lemma BindScoped(st: Form, scopePath: string, name: string)
    requires scopePath != "" && name != ""
    ensures Bind(st, scopePath, name).Ok?
    ensures Bind(st, scopePath, name).value.defaultValue == Pick(Split(name), Pick(Split(scopePath), st.current))
    ensures Bind(st, scopePath, name).value.error == GetFieldError(st, scopePath + "." + name)
  {
    PickAppend(Split(scopePath), Split(name), st.current);
  }

  /** The default value follows the live snapshot: a value set through the
      handle under the field's name is what a binding made afterwards
      starts with. */
  lemma BindSeesSetFieldValue(st: Form, scopePath: string, name: string, v: Value)
    requires name != "" && !v.Undef? && st.current.Obj?
    ensures Bind(SetFieldValue(st, QualifiedName(scopePath, name), v).form, scopePath, name).value.defaultValue == v
  {
  }

  /** After a reset no binding finds a default value. */
  lemma BindAfterReset(st: Form, data: Value, scopePath: string, name: string)
    requires name != ""
    ensures Bind(Reset(st, data), scopePath, name).value.defaultValue == Undef
  {
    PickEmpty(Split(QualifiedName(scopePath, name)));
  }

  /** A scoped field sees the error a nested error object holds for it. */
  lemma BindSeesNestedError(st: Form, obj: Value, scopePath: string, name: string)
    requires scopePath != "" && name != ""
    requires WellFormed(obj) && Split(scopePath) + Split(name) in LeafPaths(obj)
    ensures Bind(SetErrors(st, obj), scopePath, name).value.error == Pick(Split(scopePath) + Split(name), obj)
  {
    var p := Split(scopePath) + Split(name);
    SetErrorsNested(st, obj, p);
    JoinSplit(QualifiedName(scopePath, name));
  }

  /** Mounting a field under a name not yet registered and unmounting its
      binding gives the registry back. */
  lemma MountUnmount(st: Form, b: Binding, f: Field)
    requires f.name == b.fieldName && !Registered(st.fields, f.name)
    ensures Unmount(RegisterField(st, f), b).fields == st.fields
  {
    UnregisterRegister(st.fields, f);
  }

  /** With the name already registered, unmounting the new binding removes
      the earlier record instead and leaves the new one in place. */
  lemma MountUnmountTaken(st: Form, b: Binding, f: Field)
    requires f.name == b.fieldName && Registered(st.fields, f.name)
    ensures Unmount(RegisterField(st, f), b).fields == Register(Unregister(st.fields, f.name), f)
  {
    UnregisterRegisterTaken(st.fields, f);
  }
}

=== FILE: wrappers.dfy ===
/** Option and Result types shared by the form model. */
module Wrappers {

  /** An optional value: `None` stands for JavaScript's "not found" (`undefined` from `find`, `-1` from `findIndex`). */
  datatype Option<+T> = None | Some(value: T)

  /** The outcome of an operation that can throw: `Err` carries the thrown message. */
  datatype Result<+T, +E> = Ok(value: T) | Err(error: E)
}
